=== FILE: README.md ===
# login-bot worker, modelled in Dafny

The worker is a scheduled job that logs in to serv00 and ct8 hosting panels
for a list of configured accounts, a few accounts per run, and reports the
outcome. This project models its core:

- the batch cursor of `handleScheduled`, which is advanced by one step per
  scheduled run (`schedule.dfy`), and the run itself (`dispatch.dfy`);
- `loginAccount`, covering the panel URL, the CSRF token taken from the
  login page, the requests sent and the classification of the answers
  (`login.dfy`);
- `loginAccounts` and `sendBatchSummary` (`batch.dfy`);
- `combineCookies` (`cookies.dfy`);
- the username masking `replace(/(.{2}).+(.{2})/, '$1****$2')`
  (`masking.dfy`);
- the JavaScript string operations these rely on: `indexOf`, `includes`,
  `trim`, `split`, `join` and `replace` with a string pattern (`text.dfy`).

The model performs no I/O; every HTTP exchange is an input value: the login page,
the login reply and the dashboard are each either a reply or the message of
the error thrown while fetching it. The stored keys `batch_index` and
`last_finished_date` are a `Cursor` value that is read at the start of a run.
The cursor a run returns matches the store only in the keys the run writes:
the midnight run writes both, advancing to the next batch writes only
`batch_index`, finishing the day writes both, and a run that stops writes
nothing. So after a failed read the returned cursor shows the failed read
(index 0, or no date) where the store still holds its old value. The clock
and today's date are parameters.

These behaviours of the code are modelled as written, even where a reader
might expect otherwise:

- Cookie attributes such as `Path=/` become cookies. The inner
  `split(';')[0]` runs after the outer split has already removed every `;`,
  so it never discards anything.
- Emptiness is tested before trimming, so `a= =x` stores `a` with the empty
  value. The rendered `a=` is dropped by the next merge (see
  `Cookies.BlankValueNotStable`).
- A result keeps the whole account, password included, because it is built
  as `{ ...account, ...result }`.
- A failed read of either stored key falls back to the default: index 0, or
  no date.
- A failed write to the store is not caught.

## Model

| member | source | states |
|---|---|---|
| Text.IndexOfFrom | login-bot/Worker.js:177 | the index found is where the pattern occurs, with no occurrence before it; none is found only when the pattern occurs nowhere after the start |
| Text.Includes | login-bot/Worker.js:177 | `includes` is true exactly when the pattern occurs at some index |
| Text.SplitOn | login-bot/Worker.js:216-217 | `split` with one character gives at least one part; no part holds the separator; joining the parts with it gives the input back; without the separator the input is the only part |
| Text.Trim | login-bot/Worker.js:216-219 | `trim` leaves no JavaScript white space at either end and leaves a trimmed string unchanged |
| Masking.Mask | login-bot/Worker.js:93 | names under five characters are unchanged; a longer name without line breaks becomes its first two characters, `****` and its last two |
| Masking.MaskPicksLeftmostLongest | login-bot/Worker.js:93 | the rewritten span is the regex match: there is no match exactly when none is found, and the name is then returned as it is; otherwise no match starts earlier, none at that start is longer, and the match keeps its first two and last two characters around `****` with the text around it unchanged, line breaks or not |
| Masking.ShortUnchanged | login-bot/Worker.js:93 | a name of at most four characters is returned as it is |
| Masking.MaskShape | login-bot/Worker.js:93 | a masked name is eight characters long and reveals only the first two and last two characters of the original |
| Masking.MaskIdempotent | login-bot/Worker.js:93 | masking an already masked name changes nothing, whether or not it holds line breaks |
| Masking.MaskExample | login-bot/Worker.js:93 | `alice123` becomes `al****23`; `bob` stays `bob` |
| Cookies.SplitPieces | login-bot/Worker.js:215 | `split(/[,;]+/)` gives pieces free of `,` and `;`, and only the first and last piece can be empty |
| Cookies.SeparatorRuns | login-bot/Worker.js:215 | the text the split cuts out between consecutive pieces consists of non-empty runs of `,` and `;` |
| Cookies.SplitPiecesRoundTrip | login-bot/Worker.js:215 | the header is exactly its pieces with the separator runs put back between them, one run fewer than pieces |
| Cookies.SplitPiecesUnique | login-bot/Worker.js:215 | any cut of the header into separator-free pieces, non-empty except at the ends, between non-empty separator runs is the split's own, so the pieces break exactly at the maximal runs |
| Cookies.SplitPiecesKeepsText | login-bot/Worker.js:215 | the pieces put back together are the header with its separators removed, so no other character is lost |
| Cookies.ParsePieceRule | login-bot/Worker.js:216-219 | for a piece whose trimmed text is `name=value` followed by nothing or by another `=`: it is dropped exactly when `name` or `value` is empty, and otherwise yields the cookie of `name` and `value` trimmed |
| Cookies.ParsePieceShape | login-bot/Worker.js:216-219 | a piece without `=` adds nothing; a kept cookie has a non-empty name, no `=` in its name or value, and both are trimmed |
| Cookies.Position | login-bot/Worker.js:219 | the lookup finds the first entry with the name, and finds nothing exactly when the name is absent |
| Cookies.Put | login-bot/Worker.js:219 | `Map.set` overwrites an existing name in place and appends a new name at the end; every other entry is unchanged and names stay unique |
| Cookies.MergeUnique | login-bot/Worker.js:212-224 | the merged map holds each name once |
| Cookies.MergeNames | login-bot/Worker.js:212-224 | the merged map holds exactly the names that occur among the parsed cookies |
| Cookies.MergeLastWins | login-bot/Worker.js:212-224 | every name carries the value of its last occurrence |
| Cookies.MergeFirstAppearance | login-bot/Worker.js:212-225 | names are listed in the order of their first occurrence |
| Cookies.CombinedJarSpec | login-bot/Worker.js:211-225 | the combined map has unique names, exactly the names of both fragments, last-occurrence values and first-appearance order |
| Cookies.SecondFragmentWins | login-bot/Worker.js:223-224 | a name set by the second fragment takes its value from the second fragment |
| Cookies.RenderParsesBack | login-bot/Worker.js:215-225 | parsing the rendered `name=value; ...` text of well-formed cookies gives the same cookies back |
| Cookies.CombineRendered | login-bot/Worker.js:211-226 | combining the rendered header of a jar of well-formed cookies (non-empty value) with distinct names with an empty fragment, on either side, gives the header back |
| Cookies.CombineIdempotent | login-bot/Worker.js:211-226 | combining the output again with nothing changes nothing, when no stored value is blank |
| Cookies.OverrideAndAppend | login-bot/Worker.js:211-226 | merging `a=1; b=2` with `b=3,c=4`, for any cookies of that shape, overrides `b` in place and appends `c` |
| Cookies.CombineExamples | login-bot/Worker.js:211-226 | `a=1; b=2` combined with `b=3,c=4` is `a=1; b=3; c=4`; two empty fragments give the empty string |
| Cookies.BlankValueKept | login-bot/Worker.js:217-219 | `n= =x` stores `n` with the empty value, because emptiness is tested before trimming |
| Cookies.EmptyValueDropped | login-bot/Worker.js:218 | `n=` stores nothing |
| Cookies.BlankValueNotStable | login-bot/Worker.js:218-225 | `n= =x` renders as `n=`, and merging that again loses `n` |
| Login.LoginUrl | login-bot/Worker.js:129-131 | `ct8` accounts use the fixed ct8 panel; other types use the panel numbered by `panelnum`, at `/login/?next=/` |
| Login.DashboardOfLogin | login-bot/Worker.js:170 | replacing the first `/login/` gives the panel root with the same `?next=/` query |
| Login.CsrfMatch | login-bot/Worker.js:140 | a reported match is the leftmost match of the token regex; no report means the regex matches nowhere |
| Login.CsrfToken | login-bot/Worker.js:140-142 | a token is non-empty and holds no quote; a page the regex does not match gives no token |
| Login.CsrfTokenIsGroup | login-bot/Worker.js:140-142 | the token is the captured group of the leftmost match, and an empty group counts as no token |
| Login.CsrfExamples | login-bot/Worker.js:140-142 | the value `tok` is found; an empty value is treated as missing |
| Login.Classify | login-bot/Worker.js:133-207 | each of the five outcomes holds exactly under its condition: success needs the redirect to `/` and a logout link on the dashboard; each thrown error keeps its message; a missing token gives the `CSRF token` error |
| Login.Requests | login-bot/Worker.js:129-176 | the page is always fetched; the form with the page's cookies is posted exactly when a token was found; the dashboard is fetched with the merged cookies exactly when the login reply redirects to `/` |
| Login.RedirectTakesPrecedence | login-bot/Worker.js:166-196 | after a redirect to `/`, the bad-credentials text is never consulted |
| Batch.LoginAccounts | login-bot/Worker.js:102-112 | one result per account, in order, each pairing the account with the outcome of its own attempt |
| Batch.FailedBelow | login-bot/Worker.js:86 | the failed positions, increasing, failed, and all of them |
| Batch.FailureList | login-bot/Worker.js:90-95 | one line per failed result, in the order of the results |
| Batch.Count | login-bot/Worker.js:85-89 | counts the successes, counts the failures as the failed positions, and the two add up to the number of results |
| Batch.BatchSummary | login-bot/Worker.js:84-98 | the header numbers (`batchIndex+1`, `start+1`, `end`, `total`), both counters and the failure list |
| Batch.FailureLinesMasked | login-bot/Worker.js:92-94 | a listed failure shows a username of at most four characters unchanged, and one of at least five characters without line breaks as its first two characters, `****` and its last two |
| Schedule.Index | login-bot/Worker.js:47-52 | an absent, unreadable or negative stored index reads as 0; any other index is kept |
| Schedule.StepSpec | login-bot/Worker.js:23-80 | the midnight run resets; any other run with a bad configuration stops without writing, and only such a run stops that way; a finished day stops at index 0; otherwise batch `index` covers exactly `[index*size, min(index*size+size, total))`, empty only when `index*size >= total`, and the cursor advances, or wraps to 0 with today's date |
| Schedule.Slice | login-bot/Worker.js:68 | `slice` gives the accounts between start and end, or none when start is not before end |
| Schedule.DayResetIdempotent | login-bot/Worker.js:26-34 | a second midnight reset changes nothing |
| Schedule.BatchesCeiling | login-bot/Worker.js:66-71 | the number of runs in a pass is the ceiling of `total / size` |
| Schedule.FullPass | login-bot/Worker.js:61-79 | from index 0 on an unfinished day, the runs of one pass process every account exactly once, in order, and leave index 0 with today's date |
| Schedule.DoneStaysDone | login-bot/Worker.js:54-64 | once today is finished, every further run that day does nothing and keeps the cursor |
| Schedule.ResetStartsPass | login-bot/Worker.js:23-67 | after the midnight reset, the next run processes the first batch |
| Schedule.SevenAccounts | login-bot/Worker.js:45-79 | seven accounts in batches of three are processed as `[0,3)`, `[3,6)`, `[6,7)` |
| Dispatch.ProcessBatch | login-bot/Worker.js:66-70 | the batch's accounts are attempted in order; the summary carries the batch's header, counts exactly these results' successes and failures, and lists one masked line per failed result in order |
| Dispatch.HandleScheduled | login-bot/Worker.js:23-80 | the cursor follows `Step` with batches of 3; only a processing run logs in, to exactly the slice it names, and sends a summary whose header is that batch's and whose counters and failure lines are those of its own results |

## Left out

- The network: `fetch`, response bodies and headers are inputs (`Exchange`). The `redirect: 'manual'` option and header names are not modelled.
- Telegram: `sendTelegramMessage` and every message text, including the per-account Chinese messages and the next-batch and finished notices. An outcome records which message would be sent; only thrown error texts are kept.
- Timestamps (`formatToISO`, Beijing time) and the `Date` handling. The scheduled hour and minute and today's `YYYY-MM-DD` string are parameters.
- The random delay between accounts and `generateRandomUserAgent`: randomness with no effect on outcomes.
- `handleRequest`, the health check: unrelated to the core.
- `sendSummary` (lines 229-243): it is never called, and it counts like `sendBatchSummary`.
- `JSON.parse` of the two configuration variables: reduced to "parsed into accounts" (`Some`) or "failed" (`None`).
- `parseInt` of the stored index: the stored value is read as an optional integer, with `None` for absent, unreadable or not a number.
- Store writes: they are assumed to succeed. A failing `put` or `delete` aborts the run in the code.
- `URLSearchParams` encoding: the login form is the list of its four fields.
- UTF-16: strings are sequences of Unicode scalar values. A character outside the Basic Multilingual Plane counts as one character, not two code units, in the masking regex.
- Account fields are strings. In the code a username that is not a string (a number, or missing) makes `username.replace` throw on every path (lines 181-197), and again in the `catch` block (line 203). The whole run then rejects before `sendBatchSummary` and before any store write (lines 69-79), so the next run retries the same batch. The model has no such error path.
- Login.DashboardOfLogin: requires that the panel number holds no `/`. Otherwise the first `/login/` may lie inside the host, and the code then produces a different URL.
- Cookies.CombineRendered: requires a jar of well-formed cookies with distinct names. A blank value does not come back: `n=` combined with nothing is the empty string (`Cookies.BlankValueNotStable`).
- Cookies.CombineIdempotent: requires that no stored value is blank. With a blank value the property fails, as `Cookies.BlankValueNotStable` shows.
- Batch.FailureLinesMasked: says nothing of a name of five or more characters with a line break, where the regex rewrites only the first stretch of five or more characters without a line break; `Masking.MaskPicksLeftmostLongest` gives that case.
- Masking.MaskShape: requires a name without line breaks. `Masking.Mask` and `Masking.MaskPicksLeftmostLongest` cover names with line breaks.
- Schedule.FullPass: assumes no midnight reset during the pass and exactly as many runs as there are batches. `Schedule.DoneStaysDone` covers the runs after that.

=== FILE: batch.dfy ===
/** One batch of accounts: `loginAccounts` runs one attempt per account, in
    order, and `sendBatchSummary` counts the results and lists the failures
    with masked usernames. */
module Batch {
  import Masking
  import opened Login

  /** `{ ...account, ...result }`: the account together with how its
      attempt ended. `success` is `outcome == Success`. */
  datatype Result = Result(account: Account, outcome: Outcome)
  {
    predicate Success()
    {
      outcome.Succeeded()
    }
  }

  /** One line of the failure list: `- <masked user> (<type>): <message>`.
      The message text of the outcome is not modelled beyond the outcome. */
  datatype FailureLine = FailureLine(maskedUser: string, kind: string, outcome: Outcome)

  /** The batch summary: the header `batch i+1: accounts start+1~end/total`,
      the two counters, and the failure list. */
  datatype Summary = Summary(
    batchNumber: int, firstAccount: int, lastAccount: int, total: int,
    succeeded: nat, failed: nat, failures: seq<FailureLine>)

  /** `loginAccounts(accounts)`, where `network(k)` is what the servers answer
      during the attempt for the `k`-th account. Each attempt ends in an
      outcome, so one failure does not stop the others. */
  method LoginAccounts(accounts: seq<Account>, network: nat -> Exchange) returns (results: seq<Result>)
    ensures |results| == |accounts|
    ensures forall k :: 0 <= k < |accounts| ==>
              results[k] == Result(accounts[k], LoginAccount(accounts[k], network(k)).outcome)
  {
    results := [];
    for k := 0 to |accounts|
      invariant |results| == k
      invariant forall j :: 0 <= j < k ==>
                  results[j] == Result(accounts[j], LoginAccount(accounts[j], network(j)).outcome)
    {
      var attempt := LoginAccount(accounts[k], network(k));
      results := results + [Result(accounts[k], attempt.outcome)];
    }
  }

  /** The positions of the failed results among the first `n`, in
      increasing order: the order in which `results.filter(r => !r.success)`
      keeps them. */
  function FailedBelow(results: seq<Result>, n: nat): (ks: seq<nat>)
    requires n <= |results|
    ensures forall j :: 0 <= j < |ks| ==> ks[j] < n && !results[ks[j]].Success()
    ensures forall j, l :: 0 <= j < l < |ks| ==> ks[j] < ks[l]
    ensures forall k :: 0 <= k < n && !results[k].Success() ==> k in ks
  {
    if n == 0 then []
    else if results[n - 1].Success() then FailedBelow(results, n - 1)
    else FailedBelow(results, n - 1) + [n - 1]
  }

  lemma {:induction false} FailedBelowStep(results: seq<Result>, k: nat)
    requires k < |results|
    ensures results[k].Success() ==> FailedBelow(results, k + 1) == FailedBelow(results, k)
    ensures !results[k].Success() ==> FailedBelow(results, k + 1) == FailedBelow(results, k) + [k]
  {
  }

  /** The positions of all failed results, in increasing order. */
  function FailedIndices(results: seq<Result>): seq<nat>
  {
    FailedBelow(results, |results|)
  }

  /** The line of the failure list for one result. */
  function Line(r: Result): FailureLine
  {
    FailureLine(Masking.Mask(r.account.username), r.account.kind, r.outcome)
  }

  /** The number of successful results among the first `n`. */
  function SuccessCount(results: seq<Result>, n: nat): (c: nat)
    requires n <= |results|
    ensures c <= n
  {
    if n == 0 then 0
    else SuccessCount(results, n - 1) + (if results[n - 1].Success() then 1 else 0)
  }

  /** The failure list of the summary: one line per failed result, in the
      order of the results. */
  method FailureList(results: seq<Result>) returns (lines: seq<FailureLine>)
    ensures |lines| == |FailedIndices(results)|
    ensures forall j :: 0 <= j < |lines| ==> lines[j] == Line(results[FailedIndices(results)[j]])
  {
    lines := [];
    for k := 0 to |results|
      invariant |lines| == |FailedBelow(results, k)|
      invariant forall j :: 0 <= j < |lines| ==> lines[j] == Line(results[FailedBelow(results, k)[j]])
    {
      FailedBelowStep(results, k);
      if !results[k].Success() {
        lines := lines + [Line(results[k])];
      }
    }
  }

  /** The counters of the summary: successes among the results, and the
      remaining results as failures. */
  method Count(results: seq<Result>) returns (succeeded: nat, failed: nat)
    ensures succeeded == SuccessCount(results, |results|)
    ensures failed == |FailedIndices(results)|
    ensures succeeded + failed == |results|
  {
    succeeded, failed := 0, 0;
    for k := 0 to |results|
      invariant succeeded == SuccessCount(results, k)
      invariant failed == |FailedBelow(results, k)|
      invariant succeeded + failed == k
    {
      FailedBelowStep(results, k);
      if results[k].Success() {
        succeeded := succeeded + 1;
      } else {
        failed := failed + 1;
      }
    }
  }

  /** `sendBatchSummary(results, ..., batchIndex, start, end, total)`: the
      successes and the failures are counted, and every failure is listed,
      in the order of the results, with its masked username. */
  method BatchSummary(results: seq<Result>, batchIndex: int, start: int, end: int, total: int)
    returns (s: Summary)
    ensures s.batchNumber == batchIndex + 1 && s.firstAccount == start + 1
    ensures s.lastAccount == end && s.total == total
    ensures s.succeeded == SuccessCount(results, |results|)
    ensures s.succeeded + s.failed == |results|
    ensures s.failed == |s.failures| == |FailedIndices(results)|
    ensures forall j :: 0 <= j < |s.failures| ==> s.failures[j] == Line(results[FailedIndices(results)[j]])
  {
    var succeeded, failed := Count(results);
    var failures := FailureList(results);
    s := Summary(batchIndex + 1, start + 1, end, total, succeeded, failed, failures);
  }

  /** How a listed failure shows its username: a name of at most four
      characters as it is, and a name of at least five characters without line
      breaks as its two first and two last characters around `****`. */
  lemma {:induction false} FailureLinesMasked(results: seq<Result>, s: Summary, j: nat)
    requires j < |s.failures| && j < |FailedIndices(results)|
    requires s.failures[j] == Line(results[FailedIndices(results)[j]])
    ensures var u := results[FailedIndices(results)[j]].account.username;
            Masking.NoLineTerminators(u) && |u| >= 5 ==>
              s.failures[j].maskedUser == u[..2] + "****" + u[|u| - 2..]
    ensures var u := results[FailedIndices(results)[j]].account.username;
            |u| <= 4 ==> s.failures[j].maskedUser == u
  {
  }
}

=== FILE: cookies.dfy ===
/** `combineCookies`: merging two raw `set-cookie` header values into one
    `Cookie` request header. Each input is split on runs of `,` and `;`, each
    piece that has a non-empty name and value goes into an insertion-ordered
    map (a JavaScript `Map`, where overwriting a key keeps its position), and
    the map is written out as `name=value` pairs joined by `; `. */
module Cookies {
  import opened Wrappers
  import opened Text

  datatype Cookie = Cookie(name: string, value: string)

  /** The separators of the regular expression `/[,;]+/`. */
  predicate IsSeparator(c: char)
  {
    c == ',' || c == ';'
  }

  predicate NoSeparator(s: string)
  {
    forall k :: 0 <= k < |s| ==> !IsSeparator(s[k])
  }

  /** The length of the separator-free prefix of `s`. */
  function PieceLength(s: string): (n: nat)
    ensures n <= |s|
    ensures forall k :: 0 <= k < n ==> !IsSeparator(s[k])
    ensures n == |s| || IsSeparator(s[n])
  {
    if |s| == 0 || IsSeparator(s[0]) then 0 else 1 + PieceLength(s[1..])
  }

  /** The length of the run of separators that starts `s`. */
  function SeparatorRun(s: string): (n: nat)
    ensures n <= |s|
    ensures forall k :: 0 <= k < n ==> IsSeparator(s[k])
    ensures n == |s| || !IsSeparator(s[n])
  {
    if |s| == 0 || !IsSeparator(s[0]) then 0 else 1 + SeparatorRun(s[1..])
  }

  /** The characters of `s` that are not separators, in order. */
  function DropSeparators(s: string): string
  {
    if |s| == 0 then ""
    else (if IsSeparator(s[0]) then "" else [s[0]]) + DropSeparators(s[1..])
  }

  function Concat(pieces: seq<string>): string
  {
    if |pieces| == 0 then "" else pieces[0] + Concat(pieces[1..])
  }

  lemma {:induction false} DropSeparatorsAppend(a: string, b: string)
    ensures DropSeparators(a + b) == DropSeparators(a) + DropSeparators(b)
  {
    if |a| == 0 {
      assert a + b == b;
    } else {
      assert (a + b)[0] == a[0];
      assert (a + b)[1..] == a[1..] + b;
      DropSeparatorsAppend(a[1..], b);
    }
  }

  lemma {:induction false} DropSeparatorsNone(s: string)
    requires NoSeparator(s)
    ensures DropSeparators(s) == s
  {
    if |s| > 0 {
      DropSeparatorsNone(s[1..]);
    }
  }

  lemma {:induction false} DropSeparatorsAll(s: string)
    requires forall k :: 0 <= k < |s| ==> IsSeparator(s[k])
    ensures DropSeparators(s) == ""
  {
    if |s| > 0 {
      DropSeparatorsAll(s[1..]);
    }
  }

  /** `s.split(/[,;]+/)`: the pieces between maximal runs of separators. No
      piece holds a separator and only the first and last piece can be empty
      (`SplitPiecesKeepsText` shows no other character is lost). */
  function SplitPieces(s: string): (pieces: seq<string>)
    ensures |pieces| >= 1
    ensures forall k :: 0 <= k < |pieces| ==> NoSeparator(pieces[k])
    ensures forall k :: 0 < k < |pieces| - 1 ==> pieces[k] != ""
    decreases |s|
  {
    var p := PieceLength(s);
    if p == |s| then [s]
    else
      var rest := s[p..];
      var q := SeparatorRun(rest);
      var tail := SplitPieces(rest[q..]);
      assert rest[q..] != [] ==> tail[0] != "" by {
        if rest[q..] != [] {
          assert PieceLength(rest[q..]) > 0;
        }
      }
      [s[..p]] + tail
  }

  /** The pieces together hold every character of the header that is not a
      separator, in order. */
  lemma {:induction false} SplitPiecesKeepsText(s: string)
    ensures Concat(SplitPieces(s)) == DropSeparators(s)
    decreases |s|
  {
    var p := PieceLength(s);
    if p == |s| {
      DropSeparatorsNone(s);
      assert Concat([s]) == s + Concat([]);
    } else {
      var head, rest := s[..p], s[p..];
      var q := SeparatorRun(rest);
      var run, after := rest[..q], rest[q..];
      var tail := SplitPieces(after);
      assert SplitPieces(s) == [head] + tail;
      assert s == head + run + after;
      SplitPiecesKeepsText(after);
      ConcatCons(head, tail);
      DropPieceAndRun(head, run, after);
    }
  }

  /** All characters of `s` are separators. */
  predicate AllSeparators(s: string)
  {
    forall k :: 0 <= k < |s| ==> IsSeparator(s[k])
  }

  /** The maximal runs of separators that `s.split(/[,;]+/)` cuts at, in
      order: the text between consecutive pieces. */
  function SeparatorRuns(s: string): (runs: seq<string>)
    ensures forall k :: 0 <= k < |runs| ==> runs[k] != "" && AllSeparators(runs[k])
    decreases |s|
  {
    var p := PieceLength(s);
    if p == |s| then []
    else
      var rest := s[p..];
      var q := SeparatorRun(rest);
      [rest[..q]] + SeparatorRuns(rest[q..])
  }

  /** The pieces with the runs put back between them. */
  function Interleave(pieces: seq<string>, runs: seq<string>): string
    requires |pieces| == |runs| + 1
    decreases |runs|
  {
    if |runs| == 0 then pieces[0]
    else pieces[0] + runs[0] + Interleave(pieces[1..], runs[1..])
  }

  lemma {:induction false} InterleaveCons(piece: string, run: string, pieces: seq<string>, runs: seq<string>)
    requires |pieces| == |runs| + 1
    ensures Interleave([piece] + pieces, [run] + runs) == piece + run + Interleave(pieces, runs)
  {
    assert ([piece] + pieces)[1..] == pieces;
    assert ([run] + runs)[1..] == runs;
  }

  /** The header is its pieces with the separator runs between them: one run
      fewer than pieces. */
  lemma {:induction false} SplitPiecesRoundTrip(s: string)
    ensures |SeparatorRuns(s)| + 1 == |SplitPieces(s)|
    ensures Interleave(SplitPieces(s), SeparatorRuns(s)) == s
    decreases |s|
  {
    var p := PieceLength(s);
    if p == |s| {
      assert SplitPieces(s) == [s] && SeparatorRuns(s) == [];
    } else {
      var head, rest := s[..p], s[p..];
      var q := SeparatorRun(rest);
      var run, after := rest[..q], rest[q..];
      assert s == head + run + after by {
        assert rest == run + after;
      }
      assert SplitPieces(s) == [head] + SplitPieces(after);
      assert SeparatorRuns(s) == [run] + SeparatorRuns(after);
      SplitPiecesRoundTrip(after);
      InterleaveCons(head, run, SplitPieces(after), SeparatorRuns(after));
    }
  }

  /** A run of separators followed by a non-separator ends there. */
  lemma {:induction false} SeparatorRunIs(run: string, after: string)
    requires AllSeparators(run)
    requires after == [] || !IsSeparator(after[0])
    ensures SeparatorRun(run + after) == |run|
  {
    if |run| > 0 {
      assert (run + after)[1..] == run[1..] + after;
      SeparatorRunIs(run[1..], after);
    }
  }

  /** The split is the only way to cut the header into separator-free
      pieces, non-empty inside, between non-empty separator runs. */
  lemma {:induction false} SplitPiecesUnique(s: string, pieces: seq<string>, runs: seq<string>)
    requires |pieces| == |runs| + 1
    requires forall k :: 0 <= k < |pieces| ==> NoSeparator(pieces[k])
    requires forall k :: 0 < k < |pieces| - 1 ==> pieces[k] != ""
    requires forall k :: 0 <= k < |runs| ==> runs[k] != "" && AllSeparators(runs[k])
    requires Interleave(pieces, runs) == s
    ensures SplitPieces(s) == pieces && SeparatorRuns(s) == runs
    decreases |runs|
  {
    if |runs| == 0 {
      PieceLengthAll(s);
    } else {
      var head, run := pieces[0], runs[0];
      var after := Interleave(pieces[1..], runs[1..]);
      HeadTail(pieces);
      HeadTail(runs);
      InterleaveCons(head, run, pieces[1..], runs[1..]);
      assert s == head + run + after;
      SplitPiecesUnique(after, pieces[1..], runs[1..]);
      NextPiece(head, run, after, pieces[1..], runs[1..]);
    }
  }

  /** The first piece and run of `head + run + after` are `head` and `run`. */
  lemma {:induction false} NextPiece(head: string, run: string, after: string, pieces: seq<string>, runs: seq<string>)
    requires NoSeparator(head) && run != "" && AllSeparators(run)
    requires |pieces| == |runs| + 1
    requires NoSeparator(pieces[0]) && (|runs| > 0 ==> pieces[0] != "")
    requires after == Interleave(pieces, runs)
    ensures SplitPieces(head + run + after) == [head] + SplitPieces(after)
    ensures SeparatorRuns(head + run + after) == [run] + SeparatorRuns(after)
  {
    var s := head + run + after;
    assert after == [] || !IsSeparator(after[0]) by {
      if |runs| > 0 {
        assert after == pieces[0] + runs[0] + Interleave(pieces[1..], runs[1..]);
        assert after[0] == pieces[0][0];
      }
      else {
        assert after == pieces[0];
      }
    }
    assert s[|head|] == run[0];
    PieceLengthIs(s, |head|);
    assert s[..|head|] == head && s[|head|..] == run + after;
    SeparatorRunIs(run, after);
    assert (run + after)[..|run|] == run && (run + after)[|run|..] == after;
  }

  lemma {:induction false} DropPieceAndRun(head: string, run: string, after: string)
    requires NoSeparator(head)
    requires forall k :: 0 <= k < |run| ==> IsSeparator(run[k])
    ensures DropSeparators(head + run + after) == head + DropSeparators(after)
  {
    DropSeparatorsAppend(head + run, after);
    DropSeparatorsAppend(head, run);
    DropSeparatorsNone(head);
    DropSeparatorsAll(run);
  }

  lemma {:induction false} ConcatCons(x: string, tail: seq<string>)
    ensures Concat([x] + tail) == x + Concat(tail)
  {
    assert ([x] + tail)[1..] == tail;
  }

  /** A separator ends the first piece. */
  lemma {:induction false} SplitPiecesAt(p: string, sep: char, rest: string)
    requires NoSeparator(p) && IsSeparator(sep)
    requires rest == [] || !IsSeparator(rest[0])
    ensures SplitPieces(p + [sep] + rest) == [p] + SplitPieces(rest)
  {
    var s := p + [sep] + rest;
    assert PieceLength(s) == |p| by {
      assert forall k :: 0 <= k < |p| ==> s[k] == p[k];
      assert IsSeparator(s[|p|]);
      PieceLengthIs(s, |p|);
    }
    assert s[..|p|] == p;
    assert s[|p|..][1..] == rest;
    assert SeparatorRun(s[|p|..]) == 1;
  }

  /** A piece without separators is the only piece. */
  lemma {:induction false} SplitPiecesWhole(p: string)
    requires NoSeparator(p)
    ensures SplitPieces(p) == [p]
  {
    assert PieceLength(p) == |p| by {
      PieceLengthAll(p);
    }
  }

  lemma {:induction false} PieceLengthAll(p: string)
    requires NoSeparator(p)
    ensures PieceLength(p) == |p|
  {
    if |p| > 0 {
      PieceLengthAll(p[1..]);
    }
  }

  lemma {:induction false} PieceLengthIs(s: string, n: nat)
    requires n < |s| && IsSeparator(s[n])
    requires forall k :: 0 <= k < n ==> !IsSeparator(s[k])
    ensures PieceLength(s) == n
  {
    if n > 0 {
      PieceLengthIs(s[1..], n - 1);
    }
  }

  /** What parsing guarantees of a cookie: a non-empty name; name and value
      free of `,`, `;` and `=` and without spaces at either end. */
  predicate Parsed(c: Cookie)
  {
    && c.name != ""
    && NoSeparator(c.name) && NoSeparator(c.value)
    && '=' !in c.name && '=' !in c.value
    && Trimmed(c.name) && Trimmed(c.value)
  }

  /** A cookie that survives rendering and parsing unchanged: parsed, and
      with a non-empty value. */
  predicate WellFormed(c: Cookie)
  {
    Parsed(c) && c.value != ""
  }

  /** One piece of a header: `const [fullCookie] = cookie.trim().split(';')`,
      then `const [name, value] = fullCookie.split('=')`, kept (trimmed) only
      when both are non-empty. The value is the text between the first and
      the second `=`. Emptiness is tested before trimming, so a value of
      spaces only is kept as the empty string. */
  function ParsePiece(piece: string): Option<Cookie>
  {
    var full := SplitOn(Trim(piece), ';')[0];
    var parts := SplitOn(full, '=');
    if |parts| < 2 || parts[0] == "" || parts[1] == "" then None
    else Some(Cookie(Trim(parts[0]), Trim(parts[1])))
  }

  /** A piece without `=` is dropped; a kept cookie has a non-empty name, no
      `=` and no surrounding spaces, and, when the piece came out of the
      separator split, no `,` or `;` either. */
  lemma {:induction false} ParsePieceShape(piece: string)
    ensures '=' !in piece ==> ParsePiece(piece).None?
    ensures ParsePiece(piece).Some? ==>
              var c := ParsePiece(piece).value;
              && c.name != "" && Trimmed(c.name) && Trimmed(c.value)
              && '=' !in c.name && '=' !in c.value
    ensures ParsePiece(piece).Some? && NoSeparator(piece) ==> Parsed(ParsePiece(piece).value)
  {
    var full := SplitOn(Trim(piece), ';')[0];
    var parts := SplitOn(full, '=');
    if !(|parts| < 2 || parts[0] == "" || parts[1] == "") {
      ParsePieceFacts(piece, full, parts);
    }
  }

  /** The parse rule for a piece: with its trimmed text cut at the first
      `=` into `name` and at the next `=` (or the end) into `value`, the
      piece is dropped exactly when `name` or `value` is empty, and is
      otherwise the cookie of the two trimmed. */
  lemma {:induction false} ParsePieceRule(piece: string, name: string, value: string, rest: string)
    requires NoSeparator(piece)
    requires Trim(piece) == name + "=" + value + rest
    requires '=' !in name && '=' !in value
    requires rest == "" || rest[0] == '='
    ensures ParsePiece(piece) ==
              if name == "" || value == "" then None else Some(Cookie(Trim(name), Trim(value)))
  {
    var t := Trim(piece);
    NoSeparatorTrimmed(piece);
    assert ';' !in t by {
      assert forall k :: 0 <= k < |t| ==> !IsSeparator(t[k]);
    }
    NameValueParts(t, name, value, rest);
  }

  /** Splitting at `=` gives the name and then the value. */
  lemma {:induction false} NameValueParts(t: string, name: string, value: string, rest: string)
    requires t == name + "=" + value + rest
    requires '=' !in name && '=' !in value
    requires rest == "" || rest[0] == '='
    ensures |SplitOn(t, '=')| >= 2
    ensures SplitOn(t, '=')[0] == name && SplitOn(t, '=')[1] == value
  {
    var u := value + rest;
    assert t == name + ['='] + u;
    SplitOnFirst(name, '=', u);
    ValuePart(u, value, rest);
  }

  lemma {:induction false} ValuePart(u: string, value: string, rest: string)
    requires u == value + rest
    requires '=' !in value
    requires rest == "" || rest[0] == '='
    ensures SplitOn(u, '=')[0] == value
  {
    if rest == "" {
      assert u == value;
    } else {
      assert u == value + ['='] + rest[1..];
      SplitOnFirst(value, '=', rest[1..]);
    }
  }

  lemma {:induction false} ParsePieceFacts(piece: string, full: string, parts: seq<string>)
    requires full == SplitOn(Trim(piece), ';')[0]
    requires parts == SplitOn(full, '=')
    requires |parts| >= 2 && parts[0] != ""
    ensures '=' in piece
    ensures Trim(parts[0]) != ""
    ensures NoSeparator(piece) ==> NoSeparator(Trim(parts[0])) && NoSeparator(Trim(parts[1]))
  {
    var t := Trim(piece);
    JoinPrefix(SplitOn(t, ';'), [';']);
    JoinPrefix(parts, ['=']);
    EqualsInPiece(piece, t, full, parts[0]);
    NameNotBlank(t, full, parts[0]);
    if NoSeparator(piece) {
      NoSeparatorTrimmed(piece);
      assert NoSeparator(full) by {
        assert full <= t;
        forall j | 0 <= j < |full| ensures !IsSeparator(full[j]) {
          assert full[j] == t[j];
        }
      }
      NoSeparatorParts(full, '=');
      NoSeparatorTrimmed(parts[0]);
      NoSeparatorTrimmed(parts[1]);
    }
  }

  lemma {:induction false} EqualsInPiece(piece: string, t: string, full: string, name: string)
    requires t == Trim(piece)
    requires full <= t && name + "=" <= full
    ensures '=' in piece
  {
    assert t[|name|] == '=';
    TrimChars(piece, |name|);
  }

  lemma {:induction false} NameNotBlank(t: string, full: string, name: string)
    requires Trimmed(t)
    requires full <= t && name + "=" <= full && name != ""
    ensures Trim(name) != ""
  {
    assert name[0] == t[0];
    TrimNonEmpty(name);
  }

  /** The first part and its separator begin the joined string. */
  lemma {:induction false} JoinPrefix(parts: seq<string>, sep: string)
    requires |parts| >= 1
    ensures parts[0] <= Join(parts, sep)
    ensures |parts| >= 2 ==> parts[0] + sep <= Join(parts, sep)
  {
  }

  /** Trimming keeps a string free of separators. */
  lemma {:induction false} NoSeparatorTrimmed(s: string)
    requires NoSeparator(s)
    ensures NoSeparator(Trim(s))
  {
    forall j | 0 <= j < |Trim(s)| ensures !IsSeparator(Trim(s)[j]) {
      TrimChars(s, j);
    }
  }

  /** The parts of a string free of separators are free of separators. */
  lemma {:induction false} NoSeparatorParts(s: string, c: char)
    requires NoSeparator(s)
    ensures forall k :: 0 <= k < |SplitOn(s, c)| ==> NoSeparator(SplitOn(s, c)[k])
    decreases |s|
  {
    match IndexOfCharFrom(s, c, 0)
    case None =>
    case Some(i) =>
      var tail := s[i + 1..];
      assert NoSeparator(tail) by {
        forall j | 0 <= j < |tail| ensures !IsSeparator(tail[j]) {
          assert tail[j] == s[i + 1 + j];
        }
      }
      NoSeparatorParts(tail, c);
      assert SplitOn(s, c) == [s[..i]] + SplitOn(tail, c);
      assert NoSeparator(s[..i]) by {
        forall j | 0 <= j < i ensures !IsSeparator(s[..i][j]) {
          assert s[..i][j] == s[j];
        }
      }
  }

  /** The pieces' parsed cookies, in order, the unparsable ones dropped. */
  function ParseAll(pieces: seq<string>): (cs: seq<Cookie>)
    ensures |cs| <= |pieces|
  {
    if |pieces| == 0 then []
    else
      (match ParsePiece(pieces[0]) case Some(c) => [c] case None => [])
      + ParseAll(pieces[1..])
  }

  /** The cookies one header value contributes, in header order. */
  function Entries(header: string): seq<Cookie>
  {
    ParseAll(SplitPieces(header))
  }

  function Names(cs: seq<Cookie>): (ns: seq<string>)
    ensures |ns| == |cs|
    ensures forall k :: 0 <= k < |cs| ==> ns[k] == cs[k].name
  {
    seq(|cs|, k requires 0 <= k < |cs| => cs[k].name)
  }

  predicate UniqueNames(cs: seq<Cookie>)
  {
    forall i, j :: 0 <= i < j < |cs| ==> cs[i].name != cs[j].name
  }

  /** The position of the first cookie called `name`. */
  function Position(cs: seq<Cookie>, name: string): (r: Option<nat>)
    ensures r.Some? ==> r.value < |cs| && cs[r.value].name == name
    ensures r.Some? ==> forall k :: 0 <= k < r.value ==> cs[k].name != name
    ensures r.None? <==> name !in Names(cs)
  {
    if |cs| == 0 then None
    else if cs[0].name == name then Some(0)
    else match Position(cs[1..], name)
      case Some(p) => Some(p + 1)
      case None => None
  }

  /** `map.set(c.name, c.value)` on an insertion-ordered map: an existing
      entry is overwritten in place, a new one goes at the end, and no other
      entry changes. */
  function Put(jar: seq<Cookie>, c: Cookie): (r: seq<Cookie>)
    ensures UniqueNames(jar) ==> UniqueNames(r)
    ensures c.name in Names(jar) ==> |r| == |jar| && Names(r) == Names(jar)
    ensures c.name !in Names(jar) ==> r == jar + [c]
    ensures forall k :: 0 <= k < |jar| && jar[k].name != c.name ==> r[k] == jar[k]
    ensures UniqueNames(jar) ==> forall k :: 0 <= k < |r| && r[k].name == c.name ==> r[k] == c
  {
    match Position(jar, c.name)
    case Some(p) =>
      var r := jar[p := c];
      assert Names(r) == Names(jar) by {
        assert forall k :: 0 <= k < |r| ==> r[k].name == jar[k].name;
        NamesSameNames(r, jar);
      }
      r
    case None => jar + [c]
  }

  lemma {:induction false} NamesSameNames(a: seq<Cookie>, b: seq<Cookie>)
    requires |a| == |b|
    requires forall k :: 0 <= k < |a| ==> a[k].name == b[k].name
    ensures Names(a) == Names(b)
  {
  }

  /** Setting the cookies `es` one after another into an empty map. */
  function Merge(es: seq<Cookie>): seq<Cookie>
  {
    if |es| == 0 then [] else Put(Merge(es[..|es| - 1]), es[|es| - 1])
  }

  /** The value of the last cookie called `name` ("" when there is none). */
  function LastValue(es: seq<Cookie>, name: string): string
  {
    if |es| == 0 then ""
    else if es[|es| - 1].name == name then es[|es| - 1].value
    else LastValue(es[..|es| - 1], name)
  }

  /** The index of the first cookie called `name` (`|es|` when there is none). */
  function FirstIndex(es: seq<Cookie>, name: string): nat
  {
    match Position(es, name)
    case Some(p) => p
    case None => |es|
  }

  lemma {:induction false} NamesAppend(a: seq<Cookie>, b: seq<Cookie>)
    ensures Names(a + b) == Names(a) + Names(b)
  {
  }

  /** The merged map holds each name once. */
  lemma {:induction false} MergeUnique(es: seq<Cookie>)
    ensures UniqueNames(Merge(es))
  {
    if |es| > 0 {
      MergeUnique(es[..|es| - 1]);
    }
  }

  /** The merged map holds exactly the names that occur among the cookies. */
  lemma {:induction false} MergeNames(es: seq<Cookie>)
    ensures forall n :: n in Names(Merge(es)) <==> n in Names(es)
  {
    if |es| > 0 {
      var init := es[..|es| - 1];
      var c := es[|es| - 1];
      MergeNames(init);
      assert es == init + [c];
      NamesAppend(init, [c]);
      var m := Merge(init);
      if c.name !in Names(m) {
        NamesAppend(m, [c]);
      }
    }
  }

  /** Each name carries the value of its last occurrence. */
  lemma {:induction false} MergeLastWins(es: seq<Cookie>)
    ensures forall k :: 0 <= k < |Merge(es)| ==> Merge(es)[k].value == LastValue(es, Merge(es)[k].name)
  {
    if |es| > 0 {
      var init := es[..|es| - 1];
      var c := es[|es| - 1];
      var m := Merge(init);
      var r := Merge(es);
      MergeLastWins(init);
      MergeUnique(init);
      forall k | 0 <= k < |r| ensures r[k].value == LastValue(es, r[k].name) {
        if r[k].name != c.name {
          if c.name in Names(m) {
            assert Names(r)[k] == Names(m)[k];
          }
          assert r[k] == m[k];
        }
      }
    }
  }

  /** The names of `jar` appear in the order of their first occurrence in `es`. */
  predicate InFirstAppearanceOrder(jar: seq<Cookie>, es: seq<Cookie>)
  {
    forall i, j :: 0 <= i < j < |jar| ==> FirstIndex(es, jar[i].name) < FirstIndex(es, jar[j].name)
  }

  /** Names appear in the order of their first occurrence. */
  lemma {:induction false} MergeFirstAppearance(es: seq<Cookie>)
    ensures InFirstAppearanceOrder(Merge(es), es)
  {
    if |es| > 0 {
      var init := es[..|es| - 1];
      var c := es[|es| - 1];
      assert es == init + [c];
      MergeFirstAppearance(init);
      MergeNames(init);
      PutKeepsOrder(Merge(init), init, c);
    }
  }

  lemma {:induction false} PutKeepsOrder(m: seq<Cookie>, init: seq<Cookie>, c: Cookie)
    requires InFirstAppearanceOrder(m, init)
    requires forall n :: n in Names(m) <==> n in Names(init)
    ensures InFirstAppearanceOrder(Put(m, c), init + [c])
  {
    OldNamesStay(m, init, c);
    if c.name !in Names(m) {
      assert Names([c])[0] == c.name;
      PositionAppendNew(init, [c], c.name);
      PutNewLast(m, init, c);
    } else {
      PutSameNames(m, init, c);
    }
  }

  /** The names already stored keep their first positions after `c`. */
  lemma {:induction false} OldNamesStay(m: seq<Cookie>, init: seq<Cookie>, c: Cookie)
    requires forall n :: n in Names(m) <==> n in Names(init)
    ensures forall i :: 0 <= i < |m| ==>
              FirstIndex(init + [c], m[i].name) == FirstIndex(init, m[i].name) < |init|
  {
    forall i | 0 <= i < |m| ensures FirstIndex(init + [c], m[i].name) == FirstIndex(init, m[i].name) < |init| {
      assert Names(m)[i] == m[i].name;
      PositionAppend(init, [c], m[i].name);
    }
  }

  lemma {:induction false} PutNewLast(m: seq<Cookie>, init: seq<Cookie>, c: Cookie)
    requires InFirstAppearanceOrder(m, init)
    requires c.name !in Names(m)
    requires FirstIndex(init + [c], c.name) == |init|
    requires forall i :: 0 <= i < |m| ==>
               FirstIndex(init + [c], m[i].name) == FirstIndex(init, m[i].name) < |init|
    ensures InFirstAppearanceOrder(Put(m, c), init + [c])
  {
    assert Put(m, c) == m + [c];
  }

  lemma {:induction false} PutSameNames(m: seq<Cookie>, init: seq<Cookie>, c: Cookie)
    requires InFirstAppearanceOrder(m, init)
    requires c.name in Names(m)
    requires forall i :: 0 <= i < |m| ==>
               FirstIndex(init + [c], m[i].name) == FirstIndex(init, m[i].name) < |init|
    ensures InFirstAppearanceOrder(Put(m, c), init + [c])
  {
    var r := Put(m, c);
    forall i | 0 <= i < |m| ensures r[i].name == m[i].name {
      assert Names(r)[i] == Names(m)[i];
    }
  }

  /** Appending cookies does not move the first occurrence of a name. */
  lemma {:induction false} PositionAppend(a: seq<Cookie>, b: seq<Cookie>, n: string)
    requires n in Names(a)
    ensures Position(a + b, n) == Position(a, n)
    decreases |a|
  {
    assert (a + b)[0] == a[0];
    if a[0].name != n {
      assert (a + b)[1..] == a[1..] + b;
      assert n in Names(a[1..]) by {
        var k :| 0 <= k < |a| && Names(a)[k] == n;
        assert Names(a[1..])[k - 1] == n;
      }
      PositionAppend(a[1..], b, n);
    }
  }

  /** A name that first occurs in the appended part is found there. */
  lemma {:induction false} PositionAppendNew(a: seq<Cookie>, b: seq<Cookie>, n: string)
    requires n !in Names(a) && n in Names(b)
    ensures Position(a + b, n) == Some(|a| + Position(b, n).value)
    decreases |a|
  {
    if |a| == 0 {
      assert a + b == b;
    } else {
      assert (a + b)[0] == a[0];
      assert a[0].name == Names(a)[0];
      assert (a + b)[1..] == a[1..] + b;
      assert Names(a) == [a[0].name] + Names(a[1..]);
      PositionAppendNew(a[1..], b, n);
    }
  }

  /** `name=value` pairs joined by `; `. */
  function Render(jar: seq<Cookie>): string
  {
    if |jar| == 0 then ""
    else if |jar| == 1 then Pair(jar[0])
    else Pair(jar[0]) + "; " + Render(jar[1..])
  }

  /** The map `combineCookies` builds from two header values. */
  function CombinedJar(cookies1: string, cookies2: string): seq<Cookie>
  {
    Merge(Entries(cookies1) + Entries(cookies2))
  }

  /** `combineCookies(cookies1, cookies2)`. */
  function Combine(cookies1: string, cookies2: string): string
  {
    Render(CombinedJar(cookies1, cookies2))
  }

  /** The `name=value` text of one cookie. */
  function Pair(c: Cookie): string
  {
    c.name + "=" + c.value
  }

  /** A cookie parses back from its `name=value` text, with or without the
      space `; ` leaves in front of it. */
  lemma {:induction false} ParseWellFormed(sp: string, c: Cookie)
    requires WellFormed(c)
    requires sp == "" || sp == " "
    ensures NoSeparator(sp + Pair(c))
    ensures ParsePiece(sp + Pair(c)) == Some(c)
  {
    var x := Pair(c);
    PairText(c);
    assert NoSeparator(sp + x) by {
      forall k | 0 <= k < |sp + x| ensures !IsSeparator((sp + x)[k]) {
        if k >= |sp| {
          assert (sp + x)[k] == x[k - |sp|];
        }
      }
    }
    assert Trim(sp + x) == x by {
      if sp == " " {
        TrimLeadingSpace(' ', x);
        assert [' '] + x == sp + x;
      }
    }
    assert SplitOn(x, ';') == [x] by {
      assert ';' !in x;
    }
    SplitOnFirst(c.name, '=', c.value);
    ParsePieceOf(sp + x, x, c.name, c.value);
  }

  lemma {:induction false} ParsePieceOf(piece: string, t: string, n: string, v: string)
    requires Trim(piece) == t && SplitOn(t, ';') == [t]
    requires SplitOn(t, '=') == [n] + SplitOn(v, '=')
    requires n != "" && v != "" && '=' !in v && Trimmed(n) && Trimmed(v)
    ensures ParsePiece(piece) == Some(Cookie(n, v))
  {
    assert SplitOn(v, '=') == [v];
  }

  lemma {:induction false} PairText(c: Cookie)
    requires WellFormed(c)
    ensures Trimmed(Pair(c))
    ensures NoSeparator(Pair(c))
  {
    var x := Pair(c);
    assert x[0] == c.name[0];
    assert x[|x| - 1] == c.value[|c.value| - 1];
    forall k | 0 <= k < |x| ensures !IsSeparator(x[k]) {
      if k < |c.name| {
        assert x[k] == c.name[k];
      } else if k > |c.name| {
        assert x[k] == c.value[k - |c.name| - 1];
      }
    }
  }

  /** Every cookie of `jar` is well formed and names are unique. */
  predicate WellFormedJar(jar: seq<Cookie>)
  {
    UniqueNames(jar) && forall k :: 0 <= k < |jar| ==> WellFormed(jar[k])
  }

  /** Rendering a jar of well-formed cookies and parsing it again gives the
      jar back, cookie by cookie. */
  lemma {:induction false} ParseRender(sp: string, jar: seq<Cookie>)
    requires forall k :: 0 <= k < |jar| ==> WellFormed(jar[k])
    requires sp == "" || sp == " "
    ensures ParseAll(SplitPieces(sp + Render(jar))) == jar
    decreases |jar|
  {
    if |jar| == 0 {
      ParseRenderNone(sp);
    } else if |jar| == 1 {
      assert jar == [jar[0]];
      ParseRenderOne(sp, jar[0]);
    } else {
      var rest := " " + Render(jar[1..]);
      assert ParseAll(SplitPieces(rest)) == jar[1..] by {
        ParseRender(" ", jar[1..]);
      }
      ParseRenderCons(sp, jar, rest);
    }
  }

  lemma {:induction false} ParseRenderNone(sp: string)
    requires sp == "" || sp == " "
    ensures ParseAll(SplitPieces(sp + Render([]))) == []
  {
    assert sp + Render([]) == sp;
    SplitPiecesWhole(sp);
    assert ParsePiece(sp) == None by {
      ParsePieceShape(sp);
    }
    ParseAllCons(sp, []);
    assert [sp] + [] == [sp];
  }

  lemma {:induction false} ParseRenderOne(sp: string, c: Cookie)
    requires WellFormed(c)
    requires sp == "" || sp == " "
    ensures ParseAll(SplitPieces(sp + Render([c]))) == [c]
  {
    var head := sp + Pair(c);
    ParseWellFormed(sp, c);
    assert sp + Render([c]) == head;
    SplitPiecesWhole(head);
    ParseAllCons(head, []);
    assert [head] + [] == [head];
  }

  lemma {:induction false} ParseRenderCons(sp: string, jar: seq<Cookie>, rest: string)
    requires |jar| >= 2 && WellFormed(jar[0])
    requires sp == "" || sp == " "
    requires rest == " " + Render(jar[1..])
    requires ParseAll(SplitPieces(rest)) == jar[1..]
    ensures ParseAll(SplitPieces(sp + Render(jar))) == jar
  {
    var head := sp + Pair(jar[0]);
    RenderPieces(sp, jar, head, rest);
    ParseHeadPiece(sp, jar, head, SplitPieces(rest));
  }

  lemma {:induction false} RenderPieces(sp: string, jar: seq<Cookie>, head: string, rest: string)
    requires |jar| >= 2 && WellFormed(jar[0])
    requires sp == "" || sp == " "
    requires head == sp + Pair(jar[0])
    requires rest == " " + Render(jar[1..])
    ensures SplitPieces(sp + Render(jar)) == [head] + SplitPieces(rest)
  {
    assert NoSeparator(head) by {
      ParseWellFormed(sp, jar[0]);
    }
    assert !IsSeparator(rest[0]) by {
      assert rest[0] == ' ';
    }
    assert sp + Render(jar) == head + [';'] + rest by {
      RenderCons(sp, jar);
    }
    SplitPiecesAt(head, ';', rest);
  }

  lemma {:induction false} ParseHeadPiece(sp: string, jar: seq<Cookie>, head: string, tail: seq<string>)
    requires |jar| >= 2 && WellFormed(jar[0])
    requires sp == "" || sp == " "
    requires head == sp + Pair(jar[0])
    requires ParseAll(tail) == jar[1..]
    ensures ParseAll([head] + tail) == jar
  {
    ParseWellFormed(sp, jar[0]);
    ParseAllCons(head, tail);
    HeadTail(jar);
  }

  lemma {:induction false} HeadTail<T>(xs: seq<T>)
    requires |xs| > 0
    ensures xs == [xs[0]] + xs[1..]
  {
  }

  lemma {:induction false} RenderCons(sp: string, jar: seq<Cookie>)
    requires |jar| >= 2
    ensures sp + Render(jar) == sp + Pair(jar[0]) + [';'] + (" " + Render(jar[1..]))
  {
    assert "; " == [';'] + " ";
  }

  lemma {:induction false} ParseAllCons(p: string, ps: seq<string>)
    ensures ParseAll([p] + ps) ==
              (match ParsePiece(p) case Some(c) => [c] case None => []) + ParseAll(ps)
  {
    assert ([p] + ps)[1..] == ps;
  }

  /** Setting distinct names one after another builds exactly that sequence. */
  lemma {:induction false} MergeDistinct(jar: seq<Cookie>)
    requires UniqueNames(jar)
    ensures Merge(jar) == jar
  {
    if |jar| > 0 {
      var init := jar[..|jar| - 1];
      var c := jar[|jar| - 1];
      MergeDistinct(init);
      assert c.name !in Names(init) by {
        forall k | 0 <= k < |init| ensures Names(init)[k] != c.name {
          assert init[k] == jar[k];
        }
      }
      assert init + [c] == jar;
    }
  }

  /** Rendering a jar of well-formed cookies and splitting the text again
      gives the jar back. */
  lemma {:induction false} RenderParsesBack(jar: seq<Cookie>)
    requires forall k :: 0 <= k < |jar| ==> WellFormed(jar[k])
    ensures Entries(Render(jar)) == jar
  {
    ParseRender("", jar);
    assert "" + Render(jar) == Render(jar);
  }

  /** `combineCookies` reproduces its own well-formed output: merging the
      rendered text of a jar with an empty fragment, on either side, gives
      the same text. */
  lemma {:induction false} CombineRendered(jar: seq<Cookie>)
    requires WellFormedJar(jar)
    ensures Combine(Render(jar), "") == Render(jar)
    ensures Combine("", Render(jar)) == Render(jar)
  {
    RenderedJar(jar);
    EntriesEmpty();
    AppendNone(jar);
  }

  lemma {:induction false} AppendNone<T>(xs: seq<T>)
    ensures xs + [] == xs && [] + xs == xs
  {
  }

  lemma {:induction false} RenderedJar(jar: seq<Cookie>)
    requires WellFormedJar(jar)
    ensures Entries(Render(jar)) == jar && Merge(jar) == jar
  {
    RenderParsesBack(jar);
    MergeDistinct(jar);
  }

  lemma EntriesEmpty()
    ensures Entries("") == []
  {
    SplitPiecesWhole("");
  }

  predicate AllParsed(cs: seq<Cookie>)
  {
    forall k :: 0 <= k < |cs| ==> Parsed(cs[k])
  }

  lemma {:induction false} AllParsedAppend(a: seq<Cookie>, b: seq<Cookie>)
    requires AllParsed(a) && AllParsed(b)
    ensures AllParsed(a + b)
  {
    forall k | 0 <= k < |a + b| ensures Parsed((a + b)[k]) {
      if k >= |a| {
        assert (a + b)[k] == b[k - |a|];
      }
    }
  }

  /** Every cookie a header contributes has the parsed shape. */
  lemma {:induction false} EntriesParsed(header: string)
    ensures AllParsed(Entries(header))
  {
    ParseAllParsed(SplitPieces(header));
  }

  lemma {:induction false} HeadParsed(p: string)
    requires NoSeparator(p)
    ensures AllParsed(match ParsePiece(p) case Some(c) => [c] case None => [])
  {
    ParsePieceShape(p);
  }

  lemma {:induction false} ParseAllParsed(pieces: seq<string>)
    requires forall k :: 0 <= k < |pieces| ==> NoSeparator(pieces[k])
    ensures AllParsed(ParseAll(pieces))
  {
    if |pieces| > 0 {
      var h := match ParsePiece(pieces[0]) case Some(c) => [c] case None => [];
      HeadTail(pieces);
      ParseAllCons(pieces[0], pieces[1..]);
      HeadParsed(pieces[0]);
      ParseAllParsed(pieces[1..]);
      AllParsedAppend(h, ParseAll(pieces[1..]));
    }
  }

  /** Each cookie of the merged map is one of the merged cookies. */
  lemma {:induction false} MergeFrom(es: seq<Cookie>)
    ensures forall k :: 0 <= k < |Merge(es)| ==> Merge(es)[k] in es
  {
    if |es| > 0 {
      var init := es[..|es| - 1];
      MergeFrom(init);
      var m := Merge(init);
      var r := Merge(es);
      forall k | 0 <= k < |r| ensures r[k] in es {
        if r[k] != es[|es| - 1] {
          assert k < |m| && r[k] == m[k];
          assert m[k] in init;
        }
      }
    }
  }

  /** What `combineCookies` builds: one entry per name, the later value winning
      (the second fragment over the first), names in order of first
      appearance, and exactly the names some piece of either fragment
      carried. */
  lemma {:induction false} CombinedJarSpec(cookies1: string, cookies2: string)
    ensures UniqueNames(CombinedJar(cookies1, cookies2))
    ensures forall n :: n in Names(CombinedJar(cookies1, cookies2)) <==>
              n in Names(Entries(cookies1)) || n in Names(Entries(cookies2))
    ensures forall k :: 0 <= k < |CombinedJar(cookies1, cookies2)| ==>
              CombinedJar(cookies1, cookies2)[k].value
                == LastValue(Entries(cookies1) + Entries(cookies2), CombinedJar(cookies1, cookies2)[k].name)
    ensures InFirstAppearanceOrder(CombinedJar(cookies1, cookies2), Entries(cookies1) + Entries(cookies2))
  {
    var es := Entries(cookies1) + Entries(cookies2);
    MergeUnique(es);
    MergeNames(es);
    NamesAppend(Entries(cookies1), Entries(cookies2));
    MergeLastWins(es);
    MergeFirstAppearance(es);
  }

  /** A later occurrence hides every earlier one. */
  lemma {:induction false} LastValueAppend(a: seq<Cookie>, b: seq<Cookie>, n: string)
    requires n in Names(b)
    ensures LastValue(a + b, n) == LastValue(b, n)
    decreases |b|
  {
    var last := b[|b| - 1];
    assert (a + b)[|a + b| - 1] == last;
    if last.name != n {
      assert (a + b)[..|a + b| - 1] == a + b[..|b| - 1];
      assert n in Names(b[..|b| - 1]) by {
        var k :| 0 <= k < |b| && Names(b)[k] == n;
        assert k < |b| - 1;
        assert Names(b[..|b| - 1])[k] == n;
      }
      LastValueAppend(a, b[..|b| - 1], n);
    }
  }

  /** A name the second fragment sets takes its value from the second
      fragment, whatever the first one said. */
  lemma {:induction false} SecondFragmentWins(cookies1: string, cookies2: string)
    ensures forall k :: 0 <= k < |CombinedJar(cookies1, cookies2)| &&
                        CombinedJar(cookies1, cookies2)[k].name in Names(Entries(cookies2)) ==>
              CombinedJar(cookies1, cookies2)[k].value
                == LastValue(Entries(cookies2), CombinedJar(cookies1, cookies2)[k].name)
  {
    var jar := CombinedJar(cookies1, cookies2);
    CombinedJarSpec(cookies1, cookies2);
    forall k | 0 <= k < |jar| && jar[k].name in Names(Entries(cookies2))
      ensures jar[k].value == LastValue(Entries(cookies2), jar[k].name)
    {
      LastValueAppend(Entries(cookies1), Entries(cookies2), jar[k].name);
    }
  }

  /** Merging the output again with nothing changes nothing, as long as no
      stored value is blank (see `BlankValueNotStable` for the exception). */
  lemma {:induction false} CombineIdempotent(cookies1: string, cookies2: string)
    requires forall k :: 0 <= k < |CombinedJar(cookies1, cookies2)| ==> CombinedJar(cookies1, cookies2)[k].value != ""
    ensures Combine(Combine(cookies1, cookies2), "") == Combine(cookies1, cookies2)
  {
    CombinedJarWellFormed(cookies1, cookies2);
    CombineRendered(CombinedJar(cookies1, cookies2));
  }

  /** Without blank values, the combined map renders and parses back. */
  lemma {:induction false} CombinedJarWellFormed(cookies1: string, cookies2: string)
    requires forall k :: 0 <= k < |CombinedJar(cookies1, cookies2)| ==> CombinedJar(cookies1, cookies2)[k].value != ""
    ensures WellFormedJar(CombinedJar(cookies1, cookies2))
  {
    var es := Entries(cookies1) + Entries(cookies2);
    EntriesParsed(cookies1);
    EntriesParsed(cookies2);
    AllParsedAppend(Entries(cookies1), Entries(cookies2));
    MergeFrom(es);
    MergeUnique(es);
  }

  lemma {:induction false} ParseAllSome(p: string, ps: seq<string>, c: Cookie)
    requires ParsePiece(p) == Some(c)
    ensures ParseAll([p] + ps) == [c] + ParseAll(ps)
  {
    ParseAllCons(p, ps);
  }

  lemma {:induction false} ParseAllNone(p: string, ps: seq<string>)
    requires ParsePiece(p) == None
    ensures ParseAll([p] + ps) == ParseAll(ps)
  {
    ParseAllCons(p, ps);
  }

  lemma {:induction false} AppendEmpty<T>(xs: seq<T>, ys: seq<T>, e: seq<T>)
    requires e == []
    ensures xs + (ys + e) == xs + ys
  {
  }

  lemma {:induction false} TwoPiecesSplit(x: Cookie, y: Cookie, sep: char)
    requires WellFormed(x) && WellFormed(y) && IsSeparator(sep)
    ensures SplitPieces(Pair(x) + [sep] + Pair(y)) == [Pair(x)] + [Pair(y)]
  {
    PairText(x);
    PairText(y);
    assert Pair(y)[0] == y.name[0];
    SplitPiecesAt(Pair(x), sep, Pair(y));
    SplitPiecesWhole(Pair(y));
  }

  lemma {:induction false} ParseTwo(px: string, py: string, x: Cookie, y: Cookie)
    requires ParsePiece(px) == Some(x) && ParsePiece(py) == Some(y)
    ensures ParseAll([px] + [py]) == [x] + [y]
  {
    ParseAllSome(px, [py], x);
    assert [py] + [] == [py];
    ParseAllSome(py, [], y);
    assert ParseAll([]) == [];
    AppendEmpty([x], [y], ParseAll([]));
  }

  /** Two well-formed cookies joined by a separator parse back as both. */
  lemma {:induction false} TwoPieces(x: Cookie, y: Cookie, sep: char)
    requires WellFormed(x) && WellFormed(y) && IsSeparator(sep)
    ensures Entries(Pair(x) + [sep] + Pair(y)) == [x] + [y]
  {
    TwoPiecesSplit(x, y, sep);
    ParseWellFormed("", x);
    ParseWellFormed("", y);
    assert "" + Pair(x) == Pair(x) && "" + Pair(y) == Pair(y);
    ParseTwo(Pair(x), Pair(y), x, y);
  }

  lemma {:induction false} MergeOverride(a1: Cookie, b2: Cookie, b3: Cookie)
    requires a1.name != b2.name && b3.name == b2.name
    ensures Merge([a1, b2, b3]) == [a1, b3]
  {
    assert [a1, b2, b3][..2] == [a1, b2] && [a1, b2][..1] == [a1];
    assert [a1][..0] == [];
    assert Merge([a1]) == [a1];
    assert Position([a1], b2.name) == None;
    assert Merge([a1, b2]) == [a1, b2];
    assert Position([a1, b2], b3.name) == Some(1);
  }

  lemma {:induction false} MergeOverrideAppend(a1: Cookie, b2: Cookie, b3: Cookie, c4: Cookie)
    requires a1.name != b2.name && b3.name == b2.name
    requires c4.name != a1.name && c4.name != b2.name
    ensures Merge([a1, b2, b3, c4]) == [a1, b3, c4]
  {
    assert [a1, b2, b3, c4][..3] == [a1, b2, b3];
    MergeOverride(a1, b2, b3);
    assert Position([a1, b3], c4.name) == None;
  }

  /** Override and append, for any cookies of this shape: merging
      `a=1; b=2` with `b=3,c=4` overrides `b` in place and appends `c`. */
  lemma {:induction false} OverrideAndAppend(a1: Cookie, b2: Cookie, b3: Cookie, c4: Cookie)
    requires WellFormed(a1) && WellFormed(b2) && WellFormed(b3) && WellFormed(c4)
    requires a1.name != b2.name && b3.name == b2.name
    requires c4.name != a1.name && c4.name != b2.name
    ensures Combine(Render([a1, b2]), Pair(b3) + "," + Pair(c4)) == Render([a1, b3, c4])
  {
    ExampleEntries(a1, b2, b3, c4);
    MergeOverrideAppend(a1, b2, b3, c4);
  }

  lemma {:induction false} ExampleEntries(a1: Cookie, b2: Cookie, b3: Cookie, c4: Cookie)
    requires WellFormed(a1) && WellFormed(b2) && WellFormed(b3) && WellFormed(c4)
    ensures Entries(Render([a1, b2])) + Entries(Pair(b3) + "," + Pair(c4)) == [a1, b2, b3, c4]
  {
    RenderParsesBack([a1, b2]);
    Comma(Pair(b3), Pair(c4));
    TwoPieces(b3, c4, ',');
    Four(a1, b2, b3, c4);
  }

  lemma {:induction false} Comma(u: string, v: string)
    ensures u + "," + v == u + [','] + v
  {
  }

  lemma {:induction false} Four<T>(a: T, b: T, c: T, d: T)
    ensures [a, b] + ([c] + [d]) == [a, b, c, d]
  {
  }

  /** A cookie of one plain character each side is well formed. */
  lemma {:induction false} OneCharCookie(n: char, v: char)
    requires !IsSeparator(n) && !IsSeparator(v) && n != '=' && v != '='
    requires !IsJsSpace(n) && !IsJsSpace(v)
    ensures WellFormed(Cookie([n], [v]))
  {
  }

  lemma ExampleCookies()
    ensures WellFormed(Cookie("a", "1")) && WellFormed(Cookie("b", "2"))
    ensures WellFormed(Cookie("b", "3")) && WellFormed(Cookie("c", "4"))
  {
    OneCharCookie('a', '1');
    OneCharCookie('b', '2');
    OneCharCookie('b', '3');
    OneCharCookie('c', '4');
  }

  lemma {:induction false} RenderTwo(x: Cookie, y: Cookie)
    ensures Render([x, y]) == Pair(x) + "; " + Pair(y)
  {
    assert [x, y][1..] == [y];
  }

  lemma {:induction false} RenderThree(x: Cookie, y: Cookie, z: Cookie)
    ensures Render([x, y, z]) == Pair(x) + "; " + Pair(y) + "; " + Pair(z)
  {
    assert [x, y, z][1..] == [y, z];
    RenderTwo(y, z);
  }

  lemma ExampleTexts()
    ensures Render([Cookie("a", "1"), Cookie("b", "2")]) == "a=1; b=2"
    ensures Pair(Cookie("b", "3")) + "," + Pair(Cookie("c", "4")) == "b=3,c=4"
    ensures Render([Cookie("a", "1"), Cookie("b", "3"), Cookie("c", "4")]) == "a=1; b=3; c=4"
  {
    RenderTwo(Cookie("a", "1"), Cookie("b", "2"));
    RenderThree(Cookie("a", "1"), Cookie("b", "3"), Cookie("c", "4"));
  }

  /** The same merge with literal cookies; and two empty fragments give the
      empty header. */
  lemma CombineExamples()
    ensures Combine("a=1; b=2", "b=3,c=4") == "a=1; b=3; c=4"
    ensures Combine("", "") == ""
  {
    ExampleCookies();
    ExampleTexts();
    OverrideAndAppend(Cookie("a", "1"), Cookie("b", "2"), Cookie("b", "3"), Cookie("c", "4"));
    EntriesEmpty();
  }

  /** A name `ParsePiece` keeps as it is. */
  predicate PlainName(n: string)
  {
    n != "" && Trimmed(n) && NoSeparator(n) && '=' !in n
  }

  /** A plain name followed by separator-free text ending in a non-space is
      one trimmed piece without separators. */
  lemma {:induction false} PlainThen(n: string, w: string)
    requires PlainName(n) && NoSeparator(w)
    requires w != [] && !IsJsSpace(w[|w| - 1])
    ensures NoSeparator(n + w) && Trimmed(n + w) && ';' !in n + w
    ensures SplitOn(Trim(n + w), ';') == [n + w]
  {
    var p := n + w;
    assert p[0] == n[0] && p[|p| - 1] == w[|w| - 1];
    forall k | 0 <= k < |p| ensures !IsSeparator(p[k]) {
      if k < |n| {
        assert p[k] == n[k];
      } else {
        assert p[k] == w[k - |n|];
      }
    }
  }

  /** Separator-free constant tails. */
  lemma Tails()
    ensures NoSeparator("= =x") && NoSeparator("=")
    ensures "= =x" == ['='] + (" " + ['='] + "x") && "=" == ['='] + ""
    ensures '=' !in " " && Trim(" ") == "" && Trim("x") == "x"
  {
    assert LeadingSpaces(" ") == 1;
  }

  /** `name= =x` parts at `=` into the name, a blank and `x`. */
  lemma {:induction false} BlankParts(n: string)
    requires PlainName(n)
    ensures SplitOn(n + "= =x", '=') == [n] + ([" "] + SplitOn("x", '='))
  {
    Tails();
    assert n + "= =x" == n + ['='] + (" " + ['='] + "x");
    SplitOnFirst(n, '=', " " + ['='] + "x");
    SplitOnFirst(" ", '=', "x");
  }

  lemma {:induction false} BlankPiece(n: string)
    requires PlainName(n)
    ensures NoSeparator(n + "= =x")
    ensures ParsePiece(n + "= =x") == Some(Cookie(n, ""))
  {
    Tails();
    PlainThen(n, "= =x");
    BlankParts(n);
  }

  lemma {:induction false} EmptyValuePiece(n: string)
    requires PlainName(n)
    ensures NoSeparator(n + "=")
    ensures ParsePiece(n + "=") == None
  {
    Tails();
    PlainThen(n, "=");
    assert n + "=" == n + ['='] + "";
    SplitOnFirst(n, '=', "");
  }

  lemma {:induction false} BlankEntries(n: string)
    requires PlainName(n)
    ensures Entries(n + "= =x") == [Cookie(n, "")]
  {
    var p := n + "= =x";
    BlankPiece(n);
    SplitPiecesWhole(p);
    assert [p] + [] == [p];
    ParseAllSome(p, [], Cookie(n, ""));
  }

  lemma {:induction false} EmptyValueEntries(n: string)
    requires PlainName(n)
    ensures Entries(n + "=") == []
  {
    var p := n + "=";
    EmptyValuePiece(n);
    SplitPiecesWhole(p);
    assert [p] + [] == [p];
    ParseAllNone(p, []);
  }

  lemma {:induction false} BlankValueKept(n: string)
    requires PlainName(n)
    ensures CombinedJar(n + "= =x", "") == [Cookie(n, "")]
  {
    var a := Cookie(n, "");
    var none: seq<Cookie> := [];
    BlankEntries(n);
    EntriesEmpty();
    assert [a] + none == [a];
    assert [a][..0] == none;
    assert n !in Names(none);
    assert Merge([a]) == none + [a];
  }

  lemma {:induction false} EmptyValueDropped(n: string)
    requires PlainName(n)
    ensures CombinedJar(n + "=", "") == []
  {
    var none: seq<Cookie> := [];
    EmptyValueEntries(n);
    EntriesEmpty();
    assert none + none == none;
  }

  /** Emptiness is tested before trimming: a value of spaces only, as in
      `a= =x`, is stored as the empty string, and the output `a=` then no
      longer merges to itself but to the empty header. */
  lemma {:induction false} BlankValueNotStable(n: string)
    requires PlainName(n)
    ensures Combine(n + "= =x", "") == n + "="
    ensures Combine(Combine(n + "= =x", ""), "") == ""
  {
    BlankValueKept(n);
    EmptyValueDropped(n);
    assert Render([Cookie(n, "")]) == n + "=";
  }
}

=== FILE: dispatch.dfy ===
/** `handleScheduled` end to end: the cursor step decides what the run does,
    and a processing run logs in to its slice of the configured accounts and
    summarises the batch. */
module Dispatch {
  import opened Wrappers
  import opened Login
  import opened Batch
  import opened Schedule

  /** The accounts a configuration provides; an unparsable configuration
      provides none and stops the run. */
  function Total(config: Option<seq<Account>>): nat
  {
    if config.Some? then |config.value| else 0
  }

  /** `results` are the attempts for the accounts from position `start` on,
      in order: the `k`-th with what the servers answer for the `k`-th. */
  predicate AttemptsFrom(accounts: seq<Account>, start: nat, results: seq<Result>, network: nat -> Exchange)
  {
    forall k :: 0 <= k < |results| ==>
      && start + k < |accounts|
      && results[k].account == accounts[start + k]
      && results[k].outcome == LoginAccount(results[k].account, network(k)).outcome
  }

  /** `s` counts `results`: the successes, the failures, and one masked line
      per failed result in the order of the results. */
  predicate Summarises(results: seq<Result>, s: Summary)
  {
    && s.succeeded == SuccessCount(results, |results|)
    && s.succeeded + s.failed == |results|
    && s.failed == |s.failures| == |FailedIndices(results)|
    && forall j :: 0 <= j < |s.failures| ==> s.failures[j] == Line(results[FailedIndices(results)[j]])
  }

  /** One processing run over `accounts[start..end]`: the attempts in order,
      then the summary of the batch. */
  method ProcessBatch(accounts: seq<Account>, index: nat, start: nat, end: nat, network: nat -> Exchange)
    returns (results: seq<Result>, s: Summary)
    requires end <= |accounts|
    ensures |results| == |Range(start, end)|
    ensures AttemptsFrom(accounts, start, results, network)
    ensures s.batchNumber == index + 1 && s.firstAccount == start + 1
    ensures s.lastAccount == end && s.total == |accounts|
    ensures Summarises(results, s)
  {
    var batch := Slice(accounts, start, end);
    results := LoginAccounts(batch, network);
    forall k | 0 <= k < |results|
      ensures start + k < |accounts| && results[k].account == accounts[start + k]
    {
      assert batch[k] == accounts[start + k];
    }
    s := BatchSummary(results, index, start, end, |accounts|);
  }

  /** One scheduled run, in batches of `BatchSize`. `config` is `None` when
      the account or Telegram configuration does not parse; `network(k)` is
      what the servers answer for the `k`-th account of the batch. */
  method HandleScheduled(clock: Clock, today: string, config: Option<seq<Account>>,
                         c: Cursor, network: nat -> Exchange)
    returns (t: Tick, results: seq<Result>, summary: Option<Summary>)
    ensures t == Step(BatchSize, clock, today, config.Some?, Total(config), c)
    ensures !t.action.Process? ==> results == [] && summary == None
    ensures t.action.Process? ==>
              && config.Some?
              && |results| == |Processed(t.action)|
              && AttemptsFrom(config.value, t.action.start, results, network)
    ensures t.action.Process? ==>
              && summary.Some?
              && summary.value.batchNumber == t.action.index + 1
              && summary.value.firstAccount == t.action.start + 1
              && summary.value.lastAccount == t.action.end
              && summary.value.total == Total(config)
              && Summarises(results, summary.value)
  {
    t := Step(BatchSize, clock, today, config.Some?, Total(config), c);
    StepSpec(BatchSize, clock, today, config.Some?, Total(config), c);
    results := [];
    summary := None;
    if t.action.Process? {
      var s;
      results, s := ProcessBatch(config.value, t.action.index, t.action.start, t.action.end, network);
      summary := Some(s);
    }
  }
}

=== FILE: login.dfy ===
/** One login attempt of `loginAccount`: the panel URL of an account, the
    CSRF token read from the login page, the requests sent, and the
    first-match-wins classification of what the panel answered. Every HTTP
    exchange is an input: the page, the login reply and the dashboard are
    given as values, or as the message of the error thrown while fetching
    them. */
module Login {
  import opened Wrappers
  import opened Text
  import Cookies

  /** An entry of the accounts configuration. `kind` is the `type` field. */
  datatype Account = Account(username: string, password: string, panelNum: string, kind: string)

  /** What a `fetch` (together with reading its body) gives back. */
  datatype Reply = Reply(status: int, location: Option<string>, setCookie: Option<string>, body: string)

  /** A fetch that either delivered a reply or threw an error with a message. */
  datatype Fetched = Ok(reply: Reply) | Threw(message: string)

  /** The three exchanges of one attempt, as the servers answer them. */
  datatype Exchange = Exchange(page: Fetched, post: Fetched, dashboard: Fetched)

  /** A request the attempt sends. The login form is the list of its fields. */
  datatype Request =
    | PageGet(url: string)
    | LoginPost(url: string, cookie: string, form: seq<(string, string)>)
    | DashboardGet(url: string, cookie: string)

  /** How an attempt ends; only `Success` counts as a successful login. */
  datatype Outcome = Success | NoLogoutLink | BadCredentials | Unknown | Error(message: string)
  {
    predicate Succeeded()
    {
      this == Success
    }
  }

  datatype Attempt = Attempt(outcome: Outcome, requests: seq<Request>)

  const Ct8Url := "https://panel.ct8.pl/login/?next=/"
  const LoginPath := "/login/"
  const CsrfPrefix := "name=\"csrfmiddlewaretoken\" value=\""
  const CsrfMissing := "CSRF token \U{672A}\U{627E}\U{5230}"
  const LogoutLink := "href=\"/logout/\""
  const WylogujLink := "href=\"/wyloguj/\""
  const BadCredentialsText := "Nieprawid\U{0142}owy login lub has\U{0142}o"

  /** The host part of the panel of an account, before `/login/`. */
  function Host(a: Account): string
  {
    if a.kind == "ct8" then "https://panel.ct8.pl"
    else "https://panel" + a.panelNum + ".serv00.com"
  }

  /** The login page: the fixed ct8 panel for `ct8` accounts, the numbered
      serv00 panel for any other type. */
  function LoginUrl(a: Account): (url: string)
    ensures url == Host(a) + LoginPath + "?next=/"
    ensures a.kind == "ct8" ==> url == Ct8Url
  {
    if a.kind == "ct8" then Ct8Url
    else "https://panel" + a.panelNum + ".serv00.com/login/?next=/"
  }

  /** `url.replace('/login/', '/')`: the first `/login/` becomes `/`. */
  function DashboardUrl(url: string): string
  {
    ReplaceFirst(url, LoginPath, "/")
  }

  lemma {:induction false} FirstOccurrence(s: string, t: string, i: nat)
    requires OccursAt(s, t, i)
    requires forall j: nat :: j < i ==> !OccursAt(s, t, j)
    ensures IndexOfFrom(s, t, 0) == Some(i)
  {
  }

  lemma {:induction false} Mismatch(s: string, t: string, j: nat, k: nat)
    requires k < |t| && j + k < |s| && s[j + k] != t[k]
    ensures !OccursAt(s, t, j)
  {
    if j + |t| <= |s| {
      assert s[j..j + |t|][k] == s[j + k];
    }
  }

  /** No `/login/` starts inside the host of an account whose panel number
      holds no `/`: the only slashes there are the two of `https://`, and
      neither is followed by `l`. */
  lemma {:induction false} NoLoginPathInHost(a: Account, j: nat)
    requires '/' !in a.panelNum
    requires j < |Host(a)|
    ensures !OccursAt(LoginUrl(a), LoginPath, j)
  {
    var url, h := LoginUrl(a), Host(a);
    assert url[..|h|] == h;
    assert url[j] == h[j] && url[j + 1] == (h + LoginPath)[j + 1];
    if j == 6 || j == 7 {
      Mismatch(url, LoginPath, j, 1);
    } else {
      if a.kind != "ct8" && 13 <= j < 13 + |a.panelNum| {
        assert h[j] == a.panelNum[j - 13];
      }
      Mismatch(url, LoginPath, j, 0);
    }
  }

  /** The dashboard is the panel's root, with the same `?next=/` query, as
      long as the panel number does not itself contain a `/`. */
  lemma {:induction false} DashboardOfLogin(a: Account)
    requires '/' !in a.panelNum
    ensures DashboardUrl(LoginUrl(a)) == Host(a) + "/?next=/"
  {
    var url, h := LoginUrl(a), Host(a);
    assert OccursAt(url, LoginPath, |h|) by {
      assert url[|h|..|h| + |LoginPath|] == LoginPath;
    }
    forall j: nat | j < |h| ensures !OccursAt(url, LoginPath, j) {
      NoLoginPathInHost(a, j);
    }
    FirstOccurrence(url, LoginPath, |h|);
    assert url[..|h|] == h;
    assert url[|h| + |LoginPath|..] == "?next=/";
  }

  /** The regular expression `name="csrfmiddlewaretoken" value="([^"]*)"`
      matches from `i` to the quote at `q`: the prefix at `i`, then no quote
      until `q`. */
  predicate CsrfMatchAt(s: string, i: nat, q: nat)
  {
    && OccursAt(s, CsrfPrefix, i)
    && i + |CsrfPrefix| <= q < |s| && s[q] == '"'
    && forall k :: i + |CsrfPrefix| <= k < q ==> s[k] != '"'
  }

  /** The match `String.prototype.match` reports: the first occurrence of the
      prefix, closed by the next quote. */
  function CsrfMatch(s: string): (m: Option<(nat, nat)>)
    ensures m.Some? ==> CsrfMatchAt(s, m.value.0, m.value.1)
    ensures m.Some? ==> forall i: nat, q: nat :: i < m.value.0 ==> !CsrfMatchAt(s, i, q)
    ensures m.None? ==> forall i: nat, q: nat :: !CsrfMatchAt(s, i, q)
  {
    match IndexOfFrom(s, CsrfPrefix, 0)
    case None => None
    case Some(i) =>
      match IndexOfCharFrom(s, '"', i + |CsrfPrefix|)
      case None => None
      case Some(q) => Some((i, q))
  }

  /** `csrfMatch ? csrfMatch[1] : null`, where the empty token is as good as
      none (`if (!csrfToken) throw`). */
  function CsrfToken(page: string): (token: Option<string>)
    ensures token.Some? ==> token.value != "" && '"' !in token.value
    ensures (forall i: nat, q: nat :: !CsrfMatchAt(page, i, q)) ==> token.None?
  {
    match CsrfMatch(page)
    case None => None
    case Some((i, q)) =>
      var t := page[i + |CsrfPrefix|..q];
      if t == "" then None
      else
        assert forall k :: 0 <= k < |t| ==> t[k] == page[i + |CsrfPrefix| + k];
        Some(t)
  }

  /** The token, when present, is the text between the leftmost prefix and
      the quote after it. */
  lemma {:induction false} CsrfTokenIsGroup(page: string, i: nat, q: nat)
    requires CsrfMatchAt(page, i, q)
    requires forall j: nat, r: nat :: j < i ==> !CsrfMatchAt(page, j, r)
    ensures i + |CsrfPrefix| < q ==> CsrfToken(page) == Some(page[i + |CsrfPrefix|..q])
    ensures i + |CsrfPrefix| == q ==> CsrfToken(page) == None
  {
    var m := CsrfMatch(page);
    assert m.Some?;
    var (j, r) := m.value;
    assert j == i;
  }

  lemma CsrfExamples()
    ensures CsrfToken(CsrfPrefix + "tok\"") == Some("tok")
    ensures CsrfToken(CsrfPrefix + "\"") == None
  {
    var p := |CsrfPrefix|;
    var s, e := CsrfPrefix + "tok\"", CsrfPrefix + "\"";
    assert s[..p] == CsrfPrefix && e[..p] == CsrfPrefix;
    CsrfTokenIsGroup(s, 0, p + 3);
    assert s[p..p + 3] == "tok";
    CsrfTokenIsGroup(e, 0, p);
  }

  /** The login form: username, password, token and `next=/`. */
  function Form(a: Account, token: string): seq<(string, string)>
  {
    [("username", a.username), ("password", a.password), ("csrfmiddlewaretoken", token), ("next", "/")]
  }

  /** The login reply is the redirect to `/` that a successful login gives. */
  predicate Redirected(r: Reply)
  {
    r.status == 302 && r.location == Some("/")
  }

  /** The dashboard shows a logout link, in English or in Polish. */
  predicate ShowsLogout(body: string)
  {
    Includes(body, LogoutLink) || Includes(body, WylogujLink)
  }

  /** The page arrived and carries a token: the form is posted. */
  predicate Posted(x: Exchange)
  {
    x.page.Ok? && CsrfToken(x.page.reply.body).Some?
  }

  /** The form was posted and the reply redirects to `/`: the dashboard is
      fetched. */
  predicate Followed(x: Exchange)
  {
    Posted(x) && x.post.Ok? && Redirected(x.post.reply)
  }

  /** The outcome of `loginAccount`, first match wins: an error thrown while
      fetching the page, a missing token, an error thrown by the post; then
      the redirect to `/`, classified by the dashboard (an error thrown, a
      logout link, or none); then the bad-credentials text; otherwise
      unknown. */
  function Classify(x: Exchange): (o: Outcome)
    ensures o.Succeeded() <==> Followed(x) && x.dashboard.Ok? && ShowsLogout(x.dashboard.reply.body)
    ensures o == NoLogoutLink <==> Followed(x) && x.dashboard.Ok? && !ShowsLogout(x.dashboard.reply.body)
    ensures o == BadCredentials <==>
              Posted(x) && x.post.Ok? && !Redirected(x.post.reply) && Includes(x.post.reply.body, BadCredentialsText)
    ensures o == Unknown <==>
              Posted(x) && x.post.Ok? && !Redirected(x.post.reply) && !Includes(x.post.reply.body, BadCredentialsText)
    ensures o.Error? <==> x.page.Threw? || !Posted(x) || x.post.Threw? || (Followed(x) && x.dashboard.Threw?)
    ensures x.page.Threw? ==> o == Error(x.page.message)
    ensures x.page.Ok? && !Posted(x) ==> o == Error(CsrfMissing)
    ensures Posted(x) && x.post.Threw? ==> o == Error(x.post.message)
    ensures Followed(x) && x.dashboard.Threw? ==> o == Error(x.dashboard.message)
  {
    match x.page
    case Threw(m) => Error(m)
    case Ok(page) =>
      if CsrfToken(page.body).None? then Error(CsrfMissing)
      else
        match x.post
        case Threw(m) => Error(m)
        case Ok(reply) =>
          if Redirected(reply) then
            match x.dashboard
            case Threw(m) => Error(m)
            case Ok(d) => if ShowsLogout(d.body) then Success else NoLogoutLink
          else if Includes(reply.body, BadCredentialsText) then BadCredentials
          else Unknown
  }

  /** The requests `loginAccount` sends: the page, then the form with the
      page's cookies once a token is found, then the dashboard with the
      merged cookies once the login reply redirects to `/`. */
  function Requests(a: Account, x: Exchange): (rs: seq<Request>)
    ensures 1 <= |rs| <= 3 && rs[0] == PageGet(LoginUrl(a))
    ensures |rs| >= 2 <==> Posted(x)
    ensures |rs| == 3 <==> Followed(x)
    ensures Posted(x) ==>
              rs[1] == LoginPost(LoginUrl(a), x.page.reply.setCookie.GetOr(""),
                                 Form(a, CsrfToken(x.page.reply.body).value))
    ensures Followed(x) ==>
              rs[2] == DashboardGet(DashboardUrl(LoginUrl(a)),
                                    Cookies.Combine(x.page.reply.setCookie.GetOr(""),
                                                    x.post.reply.setCookie.GetOr("")))
  {
    var url := LoginUrl(a);
    var get := [PageGet(url)];
    if !Posted(x) then get
    else
      var initial := x.page.reply.setCookie.GetOr("");
      var post := [LoginPost(url, initial, Form(a, CsrfToken(x.page.reply.body).value))];
      if !Followed(x) then get + post
      else get + post + [DashboardGet(DashboardUrl(url), Cookies.Combine(initial, x.post.reply.setCookie.GetOr("")))]
  }

  /** `loginAccount` against the given exchanges: its outcome and the
      requests it sends. */
  function LoginAccount(a: Account, x: Exchange): Attempt
  {
    Attempt(Classify(x), Requests(a, x))
  }

  /** The redirect test comes first: once the login reply redirects to `/`,
      the bad-credentials text in its body is never consulted. */
  lemma {:induction false} RedirectTakesPrecedence(x: Exchange)
    requires Followed(x)
    ensures Classify(x) in {Success, NoLogoutLink} || Classify(x).Error?
    ensures Classify(x) != BadCredentials
  {
  }
}

=== FILE: masking.dfy ===
/** Username masking: `username.replace(/(.{2}).+(.{2})/, '$1****$2')`, the
    expression the worker applies before a username appears in any message. */
module Masking {
  import opened Wrappers

  /** The characters a regular-expression `.` does not match (no `s` flag). */
  predicate IsLineTerminator(c: char)
  {
    c == '\n' || c == '\r' || c as int == 0x2028 || c as int == 0x2029
  }

  predicate NoLineTerminators(s: string)
  {
    forall k :: 0 <= k < |s| ==> !IsLineTerminator(s[k])
  }

  /** `(.{2}).+(.{2})` matches `s[i..e]`: at least five characters, none of
      them a line terminator. */
  predicate MatchSpan(s: string, i: nat, e: nat)
  {
    i + 5 <= e <= |s| && forall k :: i <= k < e ==> !IsLineTerminator(s[k])
  }

  /** The leftmost index at or after `from` where a match can start. */
  function FirstMatchStart(s: string, from: nat): (r: Option<nat>)
    ensures r.Some? ==> from <= r.value && MatchSpan(s, r.value, r.value + 5)
    ensures r.Some? ==> forall j: nat, e: nat :: from <= j < r.value ==> !MatchSpan(s, j, e)
    ensures r.None? ==> forall j: nat, e: nat :: from <= j ==> !MatchSpan(s, j, e)
    decreases |s| - from
  {
    if |s| < from + 5 then None
    else if forall k :: from <= k < from + 5 ==> !IsLineTerminator(s[k]) then Some(from)
    else FirstMatchStart(s, from + 1)
  }

  /** The end of the run of non-line-terminators that starts at `i`: how far
      the greedy `.+` (followed by the two characters of `(.{2})`) reaches. */
  function RunEnd(s: string, i: nat): (e: nat)
    requires i <= |s|
    ensures i <= e <= |s|
    ensures forall k :: i <= k < e ==> !IsLineTerminator(s[k])
    ensures e == |s| || IsLineTerminator(s[e])
    decreases |s| - i
  {
    if i == |s| || IsLineTerminator(s[i]) then i else RunEnd(s, i + 1)
  }

  /** The masked username: the first match keeps its first and last two
      characters and has its interior replaced by `****`; the text around
      the match is kept; without a match the username is returned as is. */
  function Mask(s: string): (r: string)
    ensures |s| < 5 ==> r == s
    ensures NoLineTerminators(s) && |s| >= 5 ==> r == s[..2] + "****" + s[|s| - 2..]
  {
    match FirstMatchStart(s, 0)
    case None => s
    case Some(i) =>
      var e := RunEnd(s, i);
      s[..i] + s[i..i + 2] + "****" + s[e - 2..e] + s[e..]
  }

  /** The span `Mask` rewrites is the one a backtracking regular-expression
      engine picks: the leftmost start, and at that start the longest match
      (the greedy `.+`); without a match the name is kept, and otherwise the
      span keeps its two first and two last characters around `****`. */
  lemma {:induction false} MaskPicksLeftmostLongest(s: string)
    ensures FirstMatchStart(s, 0).None? <==> forall i: nat, e: nat :: !MatchSpan(s, i, e)
    ensures FirstMatchStart(s, 0).Some? ==>
              var i := FirstMatchStart(s, 0).value;
              var e := RunEnd(s, i);
              && MatchSpan(s, i, e)
              && (forall j: nat, e': nat :: j < i ==> !MatchSpan(s, j, e'))
              && (forall e': nat :: e < e' ==> !MatchSpan(s, i, e'))
    ensures FirstMatchStart(s, 0).None? ==> Mask(s) == s
    ensures FirstMatchStart(s, 0).Some? ==>
              var i := FirstMatchStart(s, 0).value;
              var e := RunEnd(s, i);
              Mask(s) == s[..i] + s[i..i + 2] + "****" + s[e - 2..e] + s[e..]
  {
    match FirstMatchStart(s, 0)
    case None =>
    case Some(i) =>
      var e := RunEnd(s, i);
      assert !IsLineTerminator(s[i + 4]);
      assert e >= i + 5;
      MaskAt(s, i, e);
  }

  /** Usernames of four characters or fewer come back unchanged. */
  lemma {:induction false} ShortUnchanged(s: string)
    requires |s| <= 4
    ensures Mask(s) == s
  {
  }

  /** A masked username of at least five characters is exactly eight long and
      shows nothing of the original but its first two and last two characters. */
  lemma {:induction false} MaskShape(s: string)
    requires NoLineTerminators(s) && |s| >= 5
    ensures |Mask(s)| == 8
    ensures Mask(s)[..2] == s[..2] && Mask(s)[2..6] == "****" && Mask(s)[6..] == s[|s| - 2..]
  {
  }

  /** Masking a masked username changes nothing more, line breaks or not:
      the rewritten span is still the leftmost match, and now exactly the
      eight characters `Mask` wrote. */
  lemma {:induction false} MaskIdempotent(s: string)
    ensures Mask(Mask(s)) == Mask(s)
  {
    match FirstMatchStart(s, 0)
    case None =>
    case Some(i) =>
      var e := RunEnd(s, i);
      assert e >= i + 5 by {
        assert !IsLineTerminator(s[i + 4]);
      }
      var p, w, q := s[..i], s[i..i + 2] + "****" + s[e - 2..e], s[e..];
      MaskAt(s, i, e);
      MatchBounded(s, i);
      MaskedSpanClean(s, i, e, w);
      assert forall j: nat, e': nat :: !MatchSpan(p, j, e') by {
        forall j: nat, e': nat | MatchSpan(p, j, e') ensures false {
          assert MatchSpan(s, j, e');
        }
      }
      MaskedAgain(p, w, q);
  }

  /** `Mask` rewrites the span from the leftmost match start to its run end. */
  lemma {:induction false} MaskAt(s: string, i: nat, e: nat)
    requires FirstMatchStart(s, 0) == Some(i) && e == RunEnd(s, i)
    ensures i + 5 <= e
    ensures Mask(s) == s[..i] + (s[i..i + 2] + "****" + s[e - 2..e]) + s[e..]
  {
    assert !IsLineTerminator(s[i + 4]);
  }

  lemma {:induction false} MaskedSpanClean(s: string, i: nat, e: nat, w: string)
    requires i + 5 <= e && MatchSpan(s, i, e)
    requires w == s[i..i + 2] + "****" + s[e - 2..e]
    ensures |w| == 8 && NoLineTerminators(w) && w[2..6] == "****"
  {
    forall k | 0 <= k < 8 ensures !IsLineTerminator(w[k]) {
      if k < 2 {
        assert w[k] == s[i + k];
      } else if k >= 6 {
        assert w[k] == s[e - 2 + (k - 6)];
      }
    }
  }

  /** A span of eight characters without line breaks, with `****` inside,
      between line terminators and after a prefix with no match, is what
      masking rewrites, and it rewrites it to itself. */
  lemma {:induction false} MaskedAgain(p: string, w: string, q: string)
    requires |w| == 8 && NoLineTerminators(w) && w[2..6] == "****"
    requires p == [] || IsLineTerminator(p[|p| - 1])
    requires q == [] || IsLineTerminator(q[0])
    requires forall j: nat, e: nat :: !MatchSpan(p, j, e)
    ensures Mask(p + w + q) == p + w + q
  {
    var m, i := p + w + q, |p|;
    LeftmostAfter(p, w, q);
    assert i + 8 == |m| || m[i + 8] == q[0];
    assert forall k :: i <= k < i + 8 ==> m[k] == w[k - i];
    RunEndIs(m, i, i + 8);
    MaskAt(m, i, i + 8);
    assert m[..i] == p && m[i + 8..] == q;
    assert m[i..i + 2] == w[..2] && m[i + 6..i + 8] == w[6..];
    assert w == w[..2] + w[2..6] + w[6..];
  }

  /** The span after the prefix is the leftmost match. */
  lemma {:induction false} LeftmostAfter(p: string, w: string, q: string)
    requires |w| == 8 && NoLineTerminators(w)
    requires p == [] || IsLineTerminator(p[|p| - 1])
    requires forall j: nat, e: nat :: !MatchSpan(p, j, e)
    ensures FirstMatchStart(p + w + q, 0) == Some(|p|)
  {
    var m, i := p + w + q, |p|;
    assert forall k :: 0 <= k < 8 ==> m[i + k] == w[k];
    assert MatchSpan(m, i, i + 5);
    forall j: nat, e: nat | j < i && e == j + 5 ensures !MatchSpan(m, j, e) {
      if j + 5 <= i {
        assert forall k :: j <= k < j + 5 ==> m[k] == p[k];
        assert !MatchSpan(p, j, j + 5);
      } else {
        assert IsLineTerminator(m[i - 1]);
      }
    }
    assert forall j: nat, e: nat :: j < i && MatchSpan(m, j, e) ==> MatchSpan(m, j, j + 5);
  }

  /** The leftmost match starts after a line terminator, or at the start. */
  lemma {:induction false} MatchBounded(s: string, i: nat)
    requires FirstMatchStart(s, 0) == Some(i)
    ensures i == 0 || IsLineTerminator(s[i - 1])
  {
    if i > 0 {
      assert !MatchSpan(s, i - 1, i + 4);
      assert forall k :: i <= k < i + 4 ==> !IsLineTerminator(s[k]);
    }
  }

  /** A run of non-line-terminators that stops at `e` ends at `e`. */
  lemma {:induction false} RunEndIs(s: string, i: nat, e: nat)
    requires i <= e <= |s|
    requires forall k :: i <= k < e ==> !IsLineTerminator(s[k])
    requires e == |s| || IsLineTerminator(s[e])
    ensures RunEnd(s, i) == e
    decreases e - i
  {
    if i < e {
      RunEndIs(s, i + 1, e);
    }
  }

  lemma MaskExample()
    ensures Mask("alice123") == "al****23"
    ensures Mask("bob") == "bob"
  {
    var s := "alice123";
    assert NoLineTerminators(s);
    assert s[..2] == "al" && s[|s| - 2..] == "23";
    ShortUnchanged("bob");
  }
}

=== FILE: schedule.dfy ===
/** The batch cursor of `handleScheduled`: a stored batch index and a stored
    "last finished" date, advanced by one step per scheduled run. A run at
    00:00 UTC resets the cursor; any other run processes the accounts
    `[index * size, min(index * size + size, total))` and moves the cursor
    to the next batch, or back to 0 with today's date once the accounts are
    exhausted. The date marker keeps a finished day from starting again. */
module Schedule {
  import opened Wrappers

  /** The UTC hour and minute of the scheduled time. */
  datatype Clock = Clock(hour: nat, minute: nat)
  {
    predicate Midnight()
    {
      hour == 0 && minute == 0
    }
  }

  /** The two stored keys. `batchIndex` is `None` when the key is absent, not
      a number, or unreadable; `lastFinished` is `None` when absent or
      unreadable. */
  datatype Cursor = Cursor(batchIndex: Option<int>, lastFinished: Option<string>)

  /** What one run does: reset for the new day, stop on a bad configuration,
      stop because today is finished, or process one batch. */
  datatype Action = DayReset | ConfigError | AlreadyDone | Process(index: nat, start: nat, end: nat)

  datatype Tick = Tick(action: Action, cursor: Cursor)

  /** The number of accounts one run logs in to. */
  const BatchSize: nat := 3

  /** The cursor the midnight run writes: index 0 and no date. */
  const Reset := Cursor(Some(0), None)

  /** The stored index as the run reads it: absent, not a number or
      negative all read as 0. */
  function Index(c: Cursor): (i: nat)
    ensures c.batchIndex.Some? && c.batchIndex.value >= 0 ==> i == c.batchIndex.value
    ensures c.batchIndex.None? || c.batchIndex.value < 0 ==> i == 0
  {
    match c.batchIndex
    case Some(i) => if i < 0 then 0 else i
    case None => 0
  }

  function Min(a: int, b: int): int
  {
    if a <= b then a else b
  }

  /** One run of `handleScheduled` with `size` accounts per batch on the day
      `today`, with `total` configured accounts (`configOk` false when the
      configuration does not parse). */
  function Step(size: nat, clock: Clock, today: string, configOk: bool, total: nat, c: Cursor): Tick
    requires size > 0
  {
    if clock.Midnight() then Tick(DayReset, Reset)
    else if !configOk then Tick(ConfigError, c)
    else
      var i := Index(c);
      if i == 0 && c.lastFinished.GetOr("") == today then Tick(AlreadyDone, c)
      else
        var start := i * size;
        var end := Min(start + size, total);
        if end < total then Tick(Process(i, start, end), Cursor(Some(i + 1), c.lastFinished))
        else Tick(Process(i, start, end), Cursor(Some(0), Some(today)))
  }

  /** What one run does and where it leaves the cursor: the midnight run
      resets, a bad configuration stops without writing, a finished day stops
      at index 0, and otherwise batch `Index(c)` is processed and the cursor
      advances, or wraps to 0 with today's date once the end is reached. */
  lemma {:induction false} StepSpec(size: nat, clock: Clock, today: string, configOk: bool, total: nat, c: Cursor)
    requires size > 0
    ensures var t := Step(size, clock, today, configOk, total, c);
            clock.Midnight() <==> t.action == DayReset
    ensures var t := Step(size, clock, today, configOk, total, c);
            t.action.DayReset? ==> t.cursor == Reset
    ensures var t := Step(size, clock, today, configOk, total, c);
            t.action.ConfigError? <==> !clock.Midnight() && !configOk
    ensures var t := Step(size, clock, today, configOk, total, c);
            t.action.ConfigError? ==> t.cursor == c
    ensures var t := Step(size, clock, today, configOk, total, c);
            t.action.AlreadyDone? <==>
              !clock.Midnight() && configOk && Index(c) == 0 && c.lastFinished.GetOr("") == today
    ensures var t := Step(size, clock, today, configOk, total, c);
            t.action.AlreadyDone? ==> t.cursor == c
    ensures var t := Step(size, clock, today, configOk, total, c);
            t.action.Process? ==>
              && t.action.index == Index(c)
              && t.action.start == Index(c) * size
              && t.action.end == Min(t.action.start + size, total)
              && (t.action.start <= total ==>
                    t.action.start <= t.action.end <= total && t.action.end - t.action.start <= size)
              && (t.action.start > total ==> t.action.end == total)
    ensures var t := Step(size, clock, today, configOk, total, c);
            t.action.Process? && t.action.end < total ==>
              t.cursor == Cursor(Some(Index(c) + 1), c.lastFinished)
    ensures var t := Step(size, clock, today, configOk, total, c);
            t.action.Process? && t.action.end >= total ==>
              t.cursor == Cursor(Some(0), Some(today))
  {
  }

  /** `accounts.slice(start, end)` for `0 <= end <= |xs|`: empty when the start
      lies at or after the end. */
  function Slice<T>(xs: seq<T>, start: nat, end: nat): (r: seq<T>)
    requires end <= |xs|
    ensures start <= end ==> r == xs[start..end]
    ensures start >= end ==> r == []
  {
    if start <= end then xs[start..end] else []
  }

  /** The account positions an action processes. */
  function Processed(a: Action): seq<nat>
  {
    if a.Process? then Range(a.start, a.end) else []
  }

  /** `lo, lo + 1, ..., hi - 1`. */
  function Range(lo: nat, hi: nat): (r: seq<nat>)
    ensures |r| == if lo <= hi then hi - lo else 0
    ensures forall k :: 0 <= k < |r| ==> r[k] == lo + k
    decreases hi - lo
  {
    if lo >= hi then [] else [lo] + Range(lo + 1, hi)
  }

  /** Runs at the given times of one day, with a valid configuration: the
      actions taken and the final cursor. */
  function Run(size: nat, clocks: seq<Clock>, today: string, total: nat, c: Cursor): (r: (seq<Action>, Cursor))
    requires size > 0
    ensures |r.0| == |clocks|
    decreases |clocks|
  {
    if |clocks| == 0 then ([], c)
    else
      var t := Step(size, clocks[0], today, true, total, c);
      var rest := Run(size, clocks[1..], today, total, t.cursor);
      ([t.action] + rest.0, rest.1)
  }

  /** The positions all the actions process, in order. */
  function AllProcessed(actions: seq<Action>): seq<nat>
  {
    if |actions| == 0 then [] else Processed(actions[0]) + AllProcessed(actions[1..])
  }

  predicate NoMidnight(clocks: seq<Clock>)
  {
    forall k :: 0 <= k < |clocks| ==> !clocks[k].Midnight()
  }

  /** The number of batches of `size` that cover `total` accounts: one per
      started group of `size`. */
  function Batches(total: nat, size: nat): nat
    requires size > 0
    decreases total
  {
    if total == 0 then 0
    else if total <= size then 1
    else 1 + Batches(total - size, size)
  }

  /** The midnight reset does not depend on the cursor, so a second reset
      changes nothing. */
  lemma {:induction false} DayResetIdempotent(size: nat, clock: Clock, today: string, configOk: bool, total: nat, c: Cursor)
    requires size > 0 && clock.Midnight()
    ensures var once := Step(size, clock, today, configOk, total, c);
            Step(size, clock, today, configOk, total, once.cursor) == once
  {
  }

  lemma {:induction false} RangeSplit(lo: nat, mid: nat, hi: nat)
    requires lo <= mid <= hi
    ensures Range(lo, mid) + Range(mid, hi) == Range(lo, hi)
  {
    assert |Range(lo, mid) + Range(mid, hi)| == hi - lo;
    forall k | 0 <= k < hi - lo ensures (Range(lo, mid) + Range(mid, hi))[k] == Range(lo, hi)[k] {
      if k < mid - lo {
        assert (Range(lo, mid) + Range(mid, hi))[k] == Range(lo, mid)[k];
      } else {
        assert (Range(lo, mid) + Range(mid, hi))[k] == Range(mid, hi)[k - (mid - lo)];
      }
    }
  }

  lemma {:induction false} RunCons(size: nat, clocks: seq<Clock>, today: string, total: nat, c: Cursor)
    requires size > 0 && |clocks| > 0
    ensures var t := Step(size, clocks[0], today, true, total, c);
            var rest := Run(size, clocks[1..], today, total, t.cursor);
            Run(size, clocks, today, total, c) == ([t.action] + rest.0, rest.1)
  {
  }

  lemma {:induction false} AllProcessedCons(a: Action, rest: seq<Action>)
    ensures AllProcessed([a] + rest) == Processed(a) + AllProcessed(rest)
  {
    assert ([a] + rest)[1..] == rest;
  }

  /** Batch `j` starts before the end exactly when there are more than `j`
      batches, and it is the last batch when it reaches the end. */
  lemma {:induction false} BatchCount(total: nat, size: nat, j: nat)
    requires size > 0 && j * size < total
    ensures j < Batches(total, size)
    ensures total <= j * size + size ==> Batches(total, size) == j + 1
    decreases j
  {
    if j > 0 {
      MulSucc(j - 1, size);
      BatchCount(total - size, size, j - 1);
    }
  }

  /** `Batches` is the ceiling of `total / size`: the batches before the last
      one do not reach the end, and all of them together do. */
  lemma {:induction false} BatchesCeiling(total: nat, size: nat)
    requires size > 0
    ensures Batches(total, size) == 0 <==> total == 0
    ensures Batches(total, size) > 0 ==>
              (Batches(total, size) - 1) * size < total <= Batches(total, size) * size
    decreases total
  {
    if total > size {
      var b := Batches(total - size, size);
      BatchesCeiling(total - size, size);
      MulSucc(b - 1, size);
      MulSucc(b, size);
    }
  }

  lemma {:induction false} NoMidnightTail(clocks: seq<Clock>)
    requires |clocks| > 0 && NoMidnight(clocks)
    ensures !clocks[0].Midnight() && NoMidnight(clocks[1..])
  {
    forall k | 0 <= k < |clocks[1..]| ensures !clocks[1..][k].Midnight() {
      assert clocks[1..][k] == clocks[k + 1];
    }
  }

  /** One run inside a pass: batch `j` is processed and the cursor moves on,
      or, for the last batch, returns to 0 with today's date. */
  lemma {:induction false} StepInPass(size: nat, clock: Clock, today: string, total: nat, j: nat, m: Option<string>)
    requires size > 0 && j * size < total && !clock.Midnight()
    requires j > 0 || m.GetOr("") != today
    ensures var t := Step(size, clock, today, true, total, Cursor(Some(j), m));
            && t.action == Process(j, j * size, Min(j * size + size, total))
            && t.cursor == NextCursor(size, today, total, j, m)
  {
  }

  /** Where the cursor goes after batch `j` of a pass. */
  function NextCursor(size: nat, today: string, total: nat, j: nat, m: Option<string>): Cursor
  {
    if j * size + size < total then Cursor(Some(j + 1), m) else Cursor(Some(0), Some(today))
  }

  lemma {:induction false} RunInPass(size: nat, clocks: seq<Clock>, today: string, total: nat, j: nat, m: Option<string>)
    requires size > 0 && j * size < total && |clocks| > 0 && !clocks[0].Midnight()
    requires j > 0 || m.GetOr("") != today
    ensures var rest := Run(size, clocks[1..], today, total, NextCursor(size, today, total, j, m));
            Run(size, clocks, today, total, Cursor(Some(j), m))
              == ([Process(j, j * size, Min(j * size + size, total))] + rest.0, rest.1)
  {
    StepInPass(size, clocks[0], today, total, j, m);
    RunCons(size, clocks, today, total, Cursor(Some(j), m));
  }

  lemma {:induction false} MulSucc(j: nat, size: nat)
    ensures 0 <= j * size
    ensures (j + 1) * size == j * size + size
  {
  }

  /** From batch `j` of a pass that is not finished, the remaining batches
      process the positions from `j * size` to the end, each once and in
      order, and leave the cursor at 0 with today's date. */
  lemma {:induction false} PassFrom(size: nat, clocks: seq<Clock>, today: string, total: nat, j: nat, m: Option<string>)
    requires size > 0 && j * size < total
    requires j > 0 || m.GetOr("") != today
    requires NoMidnight(clocks)
    requires j + |clocks| == Batches(total, size)
    ensures var r := Run(size, clocks, today, total, Cursor(Some(j), m));
            AllProcessed(r.0) == Range(j * size, total) && r.1 == Cursor(Some(0), Some(today))
    decreases |clocks|, 1
  {
    BatchCount(total, size, j);
    NoMidnightTail(clocks);
    RunInPass(size, clocks, today, total, j, m);
    if j * size + size < total {
      PassMiddle(size, clocks, today, total, j, m);
    } else {
      PassLast(size, clocks, today, total, j, m);
    }
  }

  /** A batch followed by the rest of its pass processes everything from
      the batch's start. */
  lemma {:induction false} ConsPass(start: nat, mid: nat, total: nat, j: nat, acts: seq<Action>, rest: seq<Action>)
    requires start <= mid <= total
    requires acts == [Process(j, start, mid)] + rest
    requires AllProcessed(rest) == Range(mid, total)
    ensures AllProcessed(acts) == Range(start, total)
  {
    AllProcessedCons(Process(j, start, mid), rest);
    RangeSplit(start, mid, total);
  }

  /** A batch that is not the last one: the rest of the pass follows from
      the next batch. */
  lemma {:induction false} PassMiddle(size: nat, clocks: seq<Clock>, today: string, total: nat, j: nat, m: Option<string>)
    requires size > 0 && j * size + size < total && |clocks| > 0
    requires NoMidnight(clocks[1..])
    requires j + |clocks| == Batches(total, size)
    requires var rest := Run(size, clocks[1..], today, total, Cursor(Some(j + 1), m));
             Run(size, clocks, today, total, Cursor(Some(j), m))
               == ([Process(j, j * size, j * size + size)] + rest.0, rest.1)
    ensures var r := Run(size, clocks, today, total, Cursor(Some(j), m));
            AllProcessed(r.0) == Range(j * size, total) && r.1 == Cursor(Some(0), Some(today))
    decreases |clocks|, 0
  {
    var start := j * size;
    var rest := Run(size, clocks[1..], today, total, Cursor(Some(j + 1), m));
    MulSucc(j, size);
    PassFrom(size, clocks[1..], today, total, j + 1, m);
    ConsPass(start, start + size, total, j, Run(size, clocks, today, total, Cursor(Some(j), m)).0, rest.0);
  }

  /** The last batch of a pass ends it. */
  lemma {:induction false} PassLast(size: nat, clocks: seq<Clock>, today: string, total: nat, j: nat, m: Option<string>)
    requires size > 0 && j * size < total <= j * size + size
    requires |clocks| == 1
    requires var rest := Run(size, clocks[1..], today, total, Cursor(Some(0), Some(today)));
             Run(size, clocks, today, total, Cursor(Some(j), m))
               == ([Process(j, j * size, total)] + rest.0, rest.1)
    ensures var r := Run(size, clocks, today, total, Cursor(Some(j), m));
            AllProcessed(r.0) == Range(j * size, total) && r.1 == Cursor(Some(0), Some(today))
  {
    var rest := Run(size, clocks[1..], today, total, Cursor(Some(0), Some(today)));
    assert rest == ([], Cursor(Some(0), Some(today)));
    AllProcessedCons(Process(j, j * size, total), rest.0);
  }

  /** A full pass: starting from index 0 on a day not yet finished, the
      `ceil(total / size)` runs of the day process every account exactly
      once, in order, and leave the cursor at 0 with today's date. */
  lemma {:induction false} FullPass(size: nat, clocks: seq<Clock>, today: string, total: nat, m: Option<string>)
    requires size > 0 && total > 0
    requires m.GetOr("") != today
    requires NoMidnight(clocks) && |clocks| == Batches(total, size)
    ensures var r := Run(size, clocks, today, total, Cursor(Some(0), m));
            AllProcessed(r.0) == Range(0, total) && r.1 == Cursor(Some(0), Some(today))
  {
    PassFrom(size, clocks, today, total, 0, m);
  }

  /** Once today is finished, every further run of the day does nothing. */
  lemma {:induction false} DoneStaysDone(size: nat, clocks: seq<Clock>, today: string, total: nat)
    requires size > 0 && NoMidnight(clocks)
    ensures var r := Run(size, clocks, today, total, Cursor(Some(0), Some(today)));
            r.1 == Cursor(Some(0), Some(today)) &&
            forall k :: 0 <= k < |r.0| ==> r.0[k] == AlreadyDone
    decreases |clocks|
  {
    if |clocks| > 0 {
      var c := Cursor(Some(0), Some(today));
      RunCons(size, clocks, today, total, c);
      NoMidnightTail(clocks);
      DoneStaysDone(size, clocks[1..], today, total);
    }
  }

  /** After the midnight reset, a day that is not the empty date starts a new
      pass: the first run processes the first batch. */
  lemma {:induction false} ResetStartsPass(size: nat, midnight: Clock, clock: Clock, today: string, total: nat, c: Cursor)
    requires size > 0 && midnight.Midnight() && !clock.Midnight() && today != ""
    ensures var reset := Step(size, midnight, today, true, total, c).cursor;
            Step(size, clock, today, true, total, reset).action == Process(0, 0, Min(size, total))
  {
  }

  /** The pass over seven accounts in batches of three: `[0, 3)`, `[3, 6)`,
      `[6, 7)`. */
  lemma {:induction false} SevenAccounts(today: string)
    requires today != ""
    ensures var clocks := [Clock(1, 0), Clock(2, 0), Clock(3, 0)];
            Run(3, clocks, today, 7, Cursor(Some(0), None)).0 ==
              [Process(0, 0, 3), Process(1, 3, 6), Process(2, 6, 7)]
  {
    var clocks := [Clock(1, 0), Clock(2, 0), Clock(3, 0)];
    var c0 := Cursor(Some(0), None);
    var c1 := Cursor(Some(1), None);
    var c2 := Cursor(Some(2), None);
    RunCons(3, clocks, today, 7, c0);
    assert clocks[1..] == [Clock(2, 0), Clock(3, 0)];
    RunCons(3, clocks[1..], today, 7, c1);
    assert clocks[1..][1..] == [Clock(3, 0)];
    RunCons(3, clocks[1..][1..], today, 7, c2);
  }
}

=== FILE: text.dfy ===
/** The handful of JavaScript string operations the worker relies on:
    `indexOf`, `includes`, `trim`, `split` with a one-character separator,
    `join` and `replace` with a string pattern. Strings are sequences of
    Unicode scalar values. */
module Text {
  import opened Wrappers

  /** `t` occurs in `s` starting at index `i`. */
  predicate OccursAt(s: string, t: string, i: nat)
  {
    i + |t| <= |s| && s[i..i + |t|] == t
  }

  /** The first index at or after `from` where `t` occurs. */
  function IndexOfFrom(s: string, t: string, from: nat): (r: Option<nat>)
    ensures r.Some? ==> from <= r.value && OccursAt(s, t, r.value)
    ensures r.Some? ==> forall j: nat :: from <= j < r.value ==> !OccursAt(s, t, j)
    ensures r.None? ==> forall j: nat :: from <= j ==> !OccursAt(s, t, j)
    decreases |s| - from
  {
    if |s| < from + |t| then None
    else if s[from..from + |t|] == t then Some(from)
    else IndexOfFrom(s, t, from + 1)
  }

  /** `s.includes(t)`. */
  function Includes(s: string, t: string): (b: bool)
    ensures b <==> exists i: nat :: OccursAt(s, t, i)
  {
    IndexOfFrom(s, t, 0).Some?
  }

  /** The first index at or after `from` holding the character `c`. */
  function IndexOfCharFrom(s: string, c: char, from: nat): (r: Option<nat>)
    ensures r.Some? ==> from <= r.value < |s| && s[r.value] == c
    ensures r.Some? ==> forall j :: from <= j < r.value ==> s[j] != c
    ensures r.None? ==> forall j :: from <= j < |s| ==> s[j] != c
    decreases |s| - from
  {
    if |s| <= from then None
    else if s[from] == c then Some(from)
    else IndexOfCharFrom(s, c, from + 1)
  }

  /** The characters `String.prototype.trim` removes: ECMAScript WhiteSpace
      (tab, vertical tab, form feed, space, no-break space, byte order mark and
      the Unicode Zs category) and LineTerminator code points. */
  predicate IsJsSpace(c: char)
  {
    var k := c as int;
    k == 0x09 || k == 0x0A || k == 0x0B || k == 0x0C || k == 0x0D || k == 0x20
    || k == 0xA0 || k == 0x1680 || (0x2000 <= k <= 0x200A) || k == 0x2028
    || k == 0x2029 || k == 0x202F || k == 0x205F || k == 0x3000 || k == 0xFEFF
  }

  /** Neither end of `s` is a space: `s` is its own trim. */
  predicate Trimmed(s: string)
  {
    s == [] || (!IsJsSpace(s[0]) && !IsJsSpace(s[|s| - 1]))
  }

  /** The number of leading spaces of `s`. */
  function LeadingSpaces(s: string): (n: nat)
    ensures n <= |s|
    ensures forall k :: 0 <= k < n ==> IsJsSpace(s[k])
    ensures n == |s| || !IsJsSpace(s[n])
  {
    if |s| == 0 || !IsJsSpace(s[0]) then 0 else 1 + LeadingSpaces(s[1..])
  }

  /** The length of `s` without its trailing spaces. */
  function WithoutTrailingSpaces(s: string): (m: nat)
    ensures m <= |s|
    ensures forall k :: m <= k < |s| ==> IsJsSpace(s[k])
    ensures m == 0 || !IsJsSpace(s[m - 1])
  {
    if |s| == 0 || !IsJsSpace(s[|s| - 1]) then |s| else WithoutTrailingSpaces(s[..|s| - 1])
  }

  /** `s.trim()`: `s` without its leading and trailing spaces
      (`TrimCut` says where the result sits in `s`). */
  function Trim(s: string): (r: string)
    ensures Trimmed(r)
    ensures Trimmed(s) ==> r == s
  {
    var rest := s[LeadingSpaces(s)..];
    rest[..WithoutTrailingSpaces(rest)]
  }

  /** The trimmed string is the infix of `s` after its leading spaces, and
      only spaces follow it. */
  lemma {:induction false} TrimCut(s: string)
    ensures LeadingSpaces(s) + |Trim(s)| <= |s|
    ensures Trim(s) == s[LeadingSpaces(s)..LeadingSpaces(s) + |Trim(s)|]
    ensures forall k :: LeadingSpaces(s) + |Trim(s)| <= k < |s| ==> IsJsSpace(s[k])
  {
    var a := LeadingSpaces(s);
    var rest := s[a..];
    var m := WithoutTrailingSpaces(rest);
    forall k | a + m <= k < |s| ensures IsJsSpace(s[k]) {
      assert s[k] == rest[k - a];
    }
  }

  /** Every character of the trimmed string is a character of `s`. */
  lemma {:induction false} TrimChars(s: string, j: nat)
    requires j < |Trim(s)|
    ensures Trim(s)[j] == s[LeadingSpaces(s) + j]
  {
    TrimCut(s);
  }

  /** Trimming ignores a leading space. */
  lemma {:induction false} TrimLeadingSpace(c: char, s: string)
    requires IsJsSpace(c)
    ensures Trim([c] + s) == Trim(s)
  {
    assert ([c] + s)[1..] == s;
  }

  /** A string whose first character is not a space is not empty after
      trimming. */
  lemma {:induction false} TrimNonEmpty(s: string)
    requires s != [] && !IsJsSpace(s[0])
    ensures Trim(s) != []
  {
    assert LeadingSpaces(s) == 0;
    assert s[0..] == s;
  }

  /** `parts.join(sep)`. */
  function Join(parts: seq<string>, sep: string): string
  {
    if |parts| == 0 then ""
    else if |parts| == 1 then parts[0]
    else parts[0] + sep + Join(parts[1..], sep)
  }

  /** `s.split(c)` for a one-character separator: the pieces between
      occurrences of `c`, which joined back with `c` give `s` again. */
  function SplitOn(s: string, c: char): (parts: seq<string>)
    ensures |parts| >= 1
    ensures forall k :: 0 <= k < |parts| ==> c !in parts[k]
    ensures Join(parts, [c]) == s
    ensures c !in s ==> parts == [s]
    decreases |s|
  {
    match IndexOfCharFrom(s, c, 0)
    case None => [s]
    case Some(i) =>
      var rest := SplitOn(s[i + 1..], c);
      assert c !in s[..i] by {
        forall k | 0 <= k < i ensures s[..i][k] != c { }
      }
      assert s == s[..i] + [c] + s[i + 1..];
      [s[..i]] + rest
  }

  /** Splitting at the first separator. */
  lemma {:induction false} SplitOnFirst(p: string, c: char, q: string)
    requires c !in p
    ensures SplitOn(p + [c] + q, c) == [p] + SplitOn(q, c)
  {
    var s := p + [c] + q;
    var i := IndexOfCharFrom(s, c, 0);
    assert s[|p|] == c;
    assert forall j :: 0 <= j < |p| ==> s[j] == p[j];
    assert i == Some(|p|);
    assert s[..|p|] == p;
    assert s[|p| + 1..] == q;
  }

  /** `s.replace(t, u)` with a string pattern: only the first occurrence of
      `t` is replaced. */
  function ReplaceFirst(s: string, t: string, u: string): (r: string)
    ensures IndexOfFrom(s, t, 0).None? ==> r == s
    ensures IndexOfFrom(s, t, 0).Some? ==>
      var i := IndexOfFrom(s, t, 0).value;
      r == s[..i] + u + s[i + |t|..]
  {
    match IndexOfFrom(s, t, 0)
    case None => s
    case Some(i) => s[..i] + u + s[i + |t|..]
  }
}

=== FILE: wrappers.dfy ===
/** The optional-value datatype used throughout the model: a JavaScript value
    that may be `null`/`undefined`, a key-value entry that may be absent. */
module Wrappers {

  datatype Option<+T> = None | Some(value: T) {

    /** The wrapped value, or `default` when there is none (JavaScript `x || default`
        for values whose only falsy form is absence). */
    function GetOr(default: T): T
    {
      match this
      case Some(v) => v
      case None => default
    }
  }
}
